=== FILE: README.md ===
# Function plotter front end — a Dafny model

The page in `script.js` plots one of ten function kinds: linear, quadratic, cubic, sine, cosine,
tangent, exponential, logarithmic, absolute value and square root. The user either picks a kind in
a `<select>` and fills in its parameters, or types a phrase such as "синусоида amplitude = 2" or
"linear a: 3 negative slope". A typed phrase goes through three steps:

1. It is normalised. Russian and Estonian keywords are rewritten to English by a fixed table of
   `replaceAll` calls.
2. It is classified. The ten kind patterns are tried in a fixed order, and the first one that
   occurs as a whole word wins.
3. Its `name [=:] number` phrases become parameters, and they are merged over the kind's default
   parameters before plotting.

`generateXYData` samples the chosen function on a grid of step 0.1 and keeps the finite values.

The model is split into modules:

- `Text` (text.dfy): the JavaScript string built-ins the page relies on.
- `Catalog` (catalog.dfy): the kinds, their defaults and equation texts, and the merge.
- `Keywords` and `Translate` (translate.dfy): the keyword table and its `replaceAll` fold. The
  fold is also an imperative loop.
- `Patterns` and `Interpreter` (interpret.dfy): the pattern order, the `\b` word tests, the
  greedy parameter regular expression, `matchAll`, and `parseUserInput`. The detection loop with
  its `break` and the `forEach` loop are both methods.
- `Page` (page.dfy): the click handler's decision.
- `Generate` (generate.dfy): the sampling loop, as a method proved against a recursive
  specification.
- `KeywordSteps` and `Findings` (findings.dfy): the keyword-order defect and its correction.

Two behaviours of the code shape the model:

- Keywords are rewritten by one `replaceAll` per table entry, in declaration order, and each entry
  sees the output of the entries before it. A key that contains an earlier key is therefore
  spoiled before its own entry is reached (see Findings). The model uses the table as declared.
- The merge `{ ...getDefaultParams(type), ...params }` does not filter: a parsed parameter that
  the kind does not use is carried into the plot. `Catalog.Merge` models that.

## Model

| member | source | states |
|---|---|---|
| Catalog.KindOf | script.js:7-18 | a name denotes a kind only when it is that kind's exact case label |
| Catalog.NameRoundTrip | script.js:7-17 | each kind's name reads back as that kind |
| Catalog.Keys | script.js:8-17 | each kind's parameters are among the seven parameter names |
| Catalog.DefaultParams | script.js:6-20 | a kind gets exactly its parameters, each at its neutral default (1 for `a`, `amplitude`, `frequency`, 0 otherwise); any other name gets `{}` |
| Catalog.EquationTemplate | script.js:22-36 | the fallback `y = f(x)` comes back exactly when the name is not one of the ten kinds |
| Catalog.Merge | script.js:307 | `{...defaults, ...params}` has the union of both key sets; parsed values win, and the defaults fill the rest |
| Catalog.MergeKeys | script.js:307 | the merge for a kind holds all of the kind's parameters, and only parameter names when the parsed keys are parameter names |
| Text.LowerChar | script.js:238 | an upper-case letter becomes the letter whose upper-case partner (`UpperChar`) it is, the result is never upper-case, and other characters are kept |
| Text.Lower | script.js:238 | `toLowerCase` keeps the length, turns each upper-case letter into its lower-case partner and keeps every other character, so no upper-case letter remains and lower-case text is unchanged |
| Text.Trim | script.js:248 | `trim` returns a slice that drops only white space at both ends, and the slice neither starts nor ends with white space |
| Text.SkipSpaces | script.js:248 | stops at the first non-space at or after `i`, and everything skipped is white space |
| Text.TrimmedEnd | script.js:248 | drops exactly the trailing white space after `lo` |
| Text.Includes | script.js:283 | `includes` holds exactly when the word occurs at some index |
| Text.ReplaceAllAbsent | script.js:241 | `replaceAll` with an absent non-empty pattern returns the text unchanged |
| Text.ReplaceAllSelf | script.js:241 | replacing a pattern by itself changes nothing |
| Text.ReplaceAll | script.js:241 | replacing with lower-case text keeps lower-case text lower-case |
| Text.CannotOccur | script.js:241 | a pattern whose first or last character has no room in the text does not occur |
| Text.ReplaceAllKeep | script.js:241 | a first character that cannot start an occurrence is kept, and the scan goes on |
| Text.ReplaceAllTake | script.js:241 | an occurrence at the start is replaced, and the scan resumes after it |
| Translate.TableLowerTargets | script.js:193-236 | every replacement text of the table as declared is lower-case |
| Translate.Rewrite | script.js:240-242 | the fold keeps lower-case text lower-case when every replacement text is lower-case |
| Translate.Translated | script.js:238-243 | the translation has no upper-case letter, so the second `toLowerCase` (line 248) changes nothing |
| Translate.TransliterateAndTranslate | script.js:238-243 | the loop's result is the `replaceAll` fold of the declared table, in declaration order, over the lower-cased text, and it has no upper-case letter |
| Translate.RewriteIdentity | script.js:240-242 | entries that map a key to itself leave the text unchanged |
| Translate.RewriteConcat | script.js:240-242 | folding a concatenated table is folding the first part, then the second |
| Translate.EnglishEntriesInert | script.js:226-235 | the English entries at the end of the table change nothing |
| Translate.EnglishIdentities | script.js:227-235 | every English entry maps its key to itself |
| Translate.RewriteSkip | script.js:240-242 | entries whose keys cannot occur leave the text as it is |
| Patterns.Rank | script.js:252-263 | each kind has one position in the order the patterns are tried |
| Patterns.OrderRank | script.js:252-263 | `Order` lists each kind exactly once |
| Patterns.AlternativesAreParameterNames | script.js:276 | the alternatives of the name group are exactly the seven parameter names |
| Interpreter.HasWordFrom | script.js:253-262 | `/\bw\b/` matches exactly when `w` occurs with a word boundary on both sides |
| Interpreter.MatchesWholeWord | script.js:253-262 | a kind's pattern matches exactly when its name occurs as a whole word, and the square root's also when "squareroot" does, so the hyphen-less spelling alone is read as a square root |
| Interpreter.FirstFrom | script.js:266-271 | the first index from `i` on that holds is found, or none when none holds |
| Interpreter.Classify | script.js:266-271 | the detected type matches and no kind tried before it matches; there is no type exactly when no pattern matches |
| Interpreter.FirstInOrder | script.js:266-271 | the first match in `Order` precedes every other matching kind by rank |
| Interpreter.ClassifyFirstMatch | script.js:266-271 | conversely, a matching kind with no earlier matching kind is the detected type |
| Interpreter.DetectType | script.js:266-271 | the loop with `break` returns `Classify(input)` |
| Interpreter.AbsentWord | script.js:253-262 | a word that does not occur does not match |
| Interpreter.EmbeddedWord | script.js:253-262 | a word whose only occurrence is not at a boundary does not match |
| Interpreter.DigitsEnd | script.js:276 | `\d+` stops at the first non-digit |
| Interpreter.SeparatorEnd | script.js:276 | `\s*[=:]?\s*` ends within the text |
| Interpreter.SeparatorEndShape | script.js:276 | `\s*[=:]?\s*` takes white space around at most one `=` or `:`, and all of it: it stops at a character that is not white space, and at a mark only after taking one |
| Interpreter.NumberFrom | script.js:276 | a read number is valid, is non-empty and ends within the text |
| Interpreter.NumberFromNone | script.js:276 | `-?\d+(\.\d+)?` fails exactly when no digit follows the optional minus sign |
| Interpreter.NumberFromReads | script.js:276 | the text read is exactly the text of the number returned, and what follows cannot extend it |
| Interpreter.ValueAt | script.js:276 | the value part reads a valid number that ends after `i` |
| Interpreter.ValueAtReads | script.js:276 | there is a value exactly when a digit follows the separator and the optional sign; the text after the separator is then the number's text, and what follows cannot extend it |
| Interpreter.Value | script.js:279 | `parseFloat` keeps the captured sign, and the digits before the point are the integer part of the magnitude; moving the point of the magnitude past the fraction digits gives the value of all the captured digits |
| Interpreter.Magnitude | script.js:279 | the unsigned value of the captured digits, with the point moved past the fraction digits, is the value of all of them |
| Interpreter.ShiftIsProduct | script.js:279 | moving the decimal point `k` places to the right multiplies by `10^k` |
| Interpreter.DigitsQuotientBounds | script.js:279 | all the captured digits divided by ten to the number of fraction digits have the digits before the point as integer part |
| Interpreter.DigitsValueConcat | script.js:279 | the digits of `a + b` are worth those of `a` times ten to the length of `b`, plus those of `b` |
| Interpreter.ValueAtRoundTrip | script.js:276 | spaces, an optional `=` or `:`, then a number's text followed by a non-extending character read back as that number, ending right after it |
| Interpreter.NumberFromText | script.js:276 | a number's text followed by a non-extending character is read back as exactly that number |
| Interpreter.MatchOf | script.js:276 | the match of a working alternative starts at `i`, captures that name, and has the value read after it |
| Interpreter.MatchWith | script.js:276 | the alternation takes the first alternative that works, and there is no match exactly when no alternative works |
| Interpreter.MatchAt | script.js:276 | a match at `i` captures a parameter name that occurs there and a valid number, and ends after the name |
| Interpreter.NoMatchAt | script.js:276 | there is no match at `i` exactly when no parameter name followed by a value occurs there |
| Interpreter.Hits | script.js:276 | each position's match starts there and ends after it, within the text |
| Interpreter.ScanSound | script.js:276 | the scan's matches are matches at their own starts, in order, and do not overlap |
| Interpreter.MatchAll | script.js:276 | `matchAll` returns matches of the pattern in text order, without overlap |
| Interpreter.CoveringMatch | script.js:276 | every position where the pattern matches lies inside a match the scan returns |
| Interpreter.MatchAllCovers | script.js:276 | `matchAll` misses no match except inside another match |
| Interpreter.AssignParams | script.js:277-281 | the `forEach` loop builds the parameter map of `Assign` |
| Interpreter.Assign | script.js:277-281 | each assigned parameter holds the value of the last match that names it |
| Interpreter.LastValuesStep | script.js:277-281 | assigning one more match keeps every parameter at the value of the last match naming it |
| Interpreter.AssignKeys | script.js:277-281 | the assigned keys are exactly the captured names |
| Interpreter.LastMatchWins | script.js:277-281 | when a name is captured several times, the last capture decides its value |
| Interpreter.ParamKeys | script.js:276-281 | only the seven parameter names are ever assigned |
| Interpreter.NormalizeIsTrimmedTranslation | script.js:248 | the patterns run on the trimmed translation, which has no upper-case letter |
| Interpreter.NegativeSlopeRule | script.js:283-285 | only a linear type whose text says "negative slope" is changed: `a` becomes -1 and the other parameters stay; otherwise the parameters are exactly those parsed |
| Interpreter.ParseNormalized | script.js:249-287 | the type is the classification of the normalised input, and only parameter names are reported |
| Interpreter.Interpret | script.js:246-288 | `parseUserInput` detects the classification of the trimmed translation and reports only parameter names |
| Interpreter.ParseUserInput | script.js:246-288 | the method returns `Interpret(text)` and reports only parameter names |
| Page.OnPlotClick | script.js:296-314 | typed text alerts exactly when no type is detected and is never ignored; without typed text, nothing happens exactly when nothing is selected, and otherwise the selection is plotted with the input values |
| Page.TypedPlot | script.js:298-307 | a plot from typed text is of the detected kind, its parameter names are exactly the kind's and the parsed ones, it keeps every parsed value, and it gives every other parameter its default |
| Generate.Range | script.js:82 | the half-range is positive, and it is 6π for the three trigonometric kinds |
| Generate.GridSize | script.js:84 | the loop visits exactly the grid points not beyond `range` |
| Generate.GridSizes | script.js:82-84 | there are 601 grid points for range 30, and 377 for range 6π |
| Generate.Sample | script.js:86-98 | `yi` is `null` exactly when the `switch` does not know the name, or for logarithmic at `x = 0` |
| Generate.Points | script.js:84-103 | the loop keeps at most one point per grid point, and none for a name the `switch` does not know |
| Generate.Plot | script.js:78-105 | at most one point per grid point, and no point for a name the `switch` does not know |
| Generate.GenerateXYData | script.js:78-105 | the `x` and `y` arrays have equal length and pair up into exactly the points of `Plot` |
| Generate.PointsSound | script.js:84-103 | every kept point is a grid point whose sampled value is finite and equal to its `y` |
| Generate.PointsComplete | script.js:84-103 | every grid point with a finite sample is kept |
| Generate.PointsAscending | script.js:84-103 | kept points have strictly increasing `x`, all within the range |
| Generate.PlotCharacterised | script.js:78-105 | the plot is exactly the finite samples of the grid: every kept `x` is a grid point with a finite sample, every finite grid sample is kept, in increasing `x` within `[-range, range]` |
| Generate.LogarithmicSkipsZero | script.js:95 | a logarithmic plot has no point at `x = 0`, whatever the formulas compute |
| Findings.TableIsReordering | script.js:193-236 | the corrected table is the declared one with "синус" moved after "синусоида" and "косинус", and "sinus" moved after "kosinus" |
| Findings.DeclaredOrderLosesKosinus | script.js:214-215 | "kosinus" becomes "kosine" and no type is detected |
| Findings.DeclaredOrderAlertsOnKosinus | script.js:296-300 | typing "kosinus" and clicking the plot button only raises the alert |
| Findings.DeclaredOrderMisreadsKosinus | script.js:199-201 | "косинус" becomes "коsine" and is detected as a sine |
| Findings.ReorderedTableReadsCosine | script.js:193-236 | with the corrected table, both "kosinus" and "косинус" become "cosine" and are detected as a cosine |
| Findings.KosineMatchesNothing | script.js:253-262 | "kosine" matches no pattern |
| Findings.MixedKosineIsSine | script.js:253-262 | "коsine" (Cyrillic "ко") is classified as a sine |
| Findings.CosineIsCosine | script.js:253-262 | "cosine" is classified as a cosine and not as a sine |
| KeywordSteps.SinusInKosinus | script.js:214-215 | `replaceAll("sinus", "sine")` turns "kosinus" into "kosine" |
| KeywordSteps.SinusInCyrillicKosinus | script.js:199-201 | `replaceAll("синус", "sine")` turns "косинус" into "коsine" |

## Left out

- The DOM is not modelled: element lookups, `updateParameterInputs`, the equation label, and the
  write-back of parsed values into the inputs (lines 301-306). `Page.OnPlotClick` takes the
  input field, the selection and the values read from the inputs as arguments.
- `getParametersFromInputs` reads the DOM, so its result is the `inputs` argument.
- `renderPlot` is not modelled: Plotly layout, ticks and axes. `Page.OnPlotClick` returns the
  kind and parameters it would receive.
- `alert` is not modelled as an effect: the click gives an `Alert` outcome with the message text.
- `console.log` (line 273) is not modelled.
- The change listener of the select (lines 291-294) only updates the DOM, so it is not modelled.
- The ten formulas of `generateXYData` are floating point, so they are an `Evaluator` parameter
  returning a finite value, NaN or an infinity.
- Generate.GenerateXYData: in the model `i` steps in exact reals, -range + n·0.1. In JavaScript,
  repeated `i += 0.1` drifts, so `x` is never exactly 0 and the last grid point may be lost.
  The point count and the logarithmic `x = 0` case are exact-arithmetic statements.
- Interpreter.Value: `parseFloat` is modelled as the exact decimal value of the captured text,
  without rounding to a double.
- Text.Lower: `toLowerCase` covers ASCII, Latin-1, the basic Cyrillic block with Ѐ..Џ, and Š, Ž.
  The rest of Unicode case mapping is not modelled.
- Text.IsSpace: `\s` and `trim` are modelled with the ECMAScript white-space and line-terminator
  set. Strings are sequences of code points, not UTF-16 code units.
- Catalog.EquationTemplate: only the fallback behaviour is stated. The ten display strings are
  given by the definition, and no property of their text is proved.
- The Python backends (`backend/app.py`, `my-web-app/backend/app.py`) are not part of this model.

## Findings

The corrected definition is `Keywords.CorrectedTable`: the declared entries with "синус" and
"sinus" moved after the keys that contain them. It is used through `Translate.TranslateWith` and
`Interpreter.InterpretWith`; the rest of the model keeps the table as declared.

| source | as written | input that shows it | evidently intended | confidence | as-written member | corrected member |
|---|---|---|---|---|---|---|
| script.js:214-215 | "sinus" is replaced before "kosinus", the key that contains it | "kosinus" becomes "kosine", and no type is detected (the page alerts) | "kosinus" becomes "cosine" and is detected as a cosine | not executed | Findings.DeclaredOrderLosesKosinus | Findings.ReorderedTableReadsCosine |
| script.js:199-201 | "синус" is replaced before "косинус", the key that contains it | "косинус" becomes "коsine", which is detected as a sine because the Cyrillic "о" is not a word character for `\b` | "косинус" becomes "cosine" and is detected as a cosine | not executed | Findings.DeclaredOrderMisreadsKosinus | Findings.ReorderedTableReadsCosine |

=== FILE: catalog.dfy ===
/** The function catalog: the ten function kinds, their default parameters and the equation shown
    for each (script.js, `getDefaultParams` and `getEquationTemplate`), and the merge of parsed
    parameters over the defaults done before plotting. */
module Catalog {
  import opened Wrappers
  import opened Text

  datatype Kind =
    | Linear | Quadratic | Cubic
    | Sine | Cosine | Tangent
    | Exponential | Logarithmic | Absolute | SquareRoot

  /** A parameter set: parameter name to value. Values are the exact reals of the decimal
      literals the user wrote; binary floating point is not modelled. */
  type Params = map<string, real>

  /** The string the page uses as the kind's name (the `<select>` value and the key of the
      interpreter's pattern table); `KindOf` reads it back. */
  function Name(k: Kind): string {
    match k
    case Linear => "linear"
    case Quadratic => "quadratic"
    case Cubic => "cubic"
    case Sine => "sine"
    case Cosine => "cosine"
    case Tangent => "tangent"
    case Exponential => "exponential"
    case Logarithmic => "logarithmic"
    case Absolute => "absolute"
    case SquareRoot => "square-root"
  }

  /** The kind a name denotes, if any: the ten cases of the page's `switch` statements. */
  function KindOf(s: string): (r: Option<Kind>)
    ensures r.Some? ==> s == Name(r.value)
  {
    match s
    case "linear" => Some(Linear)
    case "quadratic" => Some(Quadratic)
    case "cubic" => Some(Cubic)
    case "sine" => Some(Sine)
    case "cosine" => Some(Cosine)
    case "tangent" => Some(Tangent)
    case "exponential" => Some(Exponential)
    case "logarithmic" => Some(Logarithmic)
    case "absolute" => Some(Absolute)
    case "square-root" => Some(SquareRoot)
    case _ => None
  }

  /** Every parameter name any kind uses. */
  const ParameterNames: set<string> := {"amplitude", "frequency", "phase", "a", "b", "c", "d"}

  /** The parameters of each kind: a, b for linear; a, b, c for quadratic; a, b, c, d for cubic;
      amplitude, frequency, phase for the three trigonometric kinds; a for the rest. */
  function Keys(k: Kind): (ks: set<string>)
    ensures ks <= ParameterNames
  {
    match k
    case Linear => {"a", "b"}
    case Quadratic => {"a", "b", "c"}
    case Cubic => {"a", "b", "c", "d"}
    case Sine | Cosine | Tangent => {"amplitude", "frequency", "phase"}
    case Exponential | Logarithmic | Absolute | SquareRoot => {"a"}
  }

  /** The neutral default of a parameter: 1 for a leading coefficient, an amplitude or a
      frequency, 0 for an additive term or a phase. */
  function DefaultValue(key: string): real {
    if key in {"a", "amplitude", "frequency"} then 1.0 else 0.0
  }

  /** `getDefaultParams(kind)`: exactly the kind's parameters, each at its neutral default, and
      no parameter at all for a name that is not a kind. */
  function DefaultParams(kind: string): (r: Params)
    ensures KindOf(kind).Some? ==> r.Keys == Keys(KindOf(kind).value)
    ensures KindOf(kind).None? ==> r == map[]
    ensures forall key :: key in r ==> r[key] == DefaultValue(key)
  {
    match kind
    case "linear" => map["a" := 1.0, "b" := 0.0]
    case "quadratic" => map["a" := 1.0, "b" := 0.0, "c" := 0.0]
    case "cubic" => map["a" := 1.0, "b" := 0.0, "c" := 0.0, "d" := 0.0]
    case "sine" | "cosine" | "tangent" => map["amplitude" := 1.0, "frequency" := 1.0, "phase" := 0.0]
    case "exponential" => map["a" := 1.0]
    case "logarithmic" => map["a" := 1.0]
    case "absolute" => map["a" := 1.0]
    case "square-root" => map["a" := 1.0]
    case _ => map[]
  }

  /** `getEquationTemplate(type)`: the equation shown for each kind, and the fallback `y = f(x)`
      exactly when the name is not a kind. */
  function EquationTemplate(kind: string): (r: string)
    ensures r == "y = f(x)" <==> KindOf(kind).None?
  {
    match kind
    case "linear" => "y = a * x + b"
    case "quadratic" => "y = a * x² + b * x + c"
    case "cubic" => "y = a * x³ + b * x² + c * x + d"
    case "sine" => "y = amplitude * sin(frequency * x + phase)"
    case "cosine" => "y = amplitude * cos(frequency * x + phase)"
    case "tangent" => "y = amplitude * tan(frequency * x + phase)"
    case "exponential" => "y = a * eˣ"
    case "logarithmic" => "y = a * ln(|x|)"
    case "absolute" => "y = a * |x|"
    case "square-root" => "y = a * √|x|"
    case _ => "y = f(x)"
  }

  /** Names and kinds are in one-to-one correspondence. */
  lemma NameRoundTrip(k: Kind)
    ensures KindOf(Name(k)) == Some(k)
  {
  }

  /** `{ ...getDefaultParams(kind), ...params }`: every default parameter of the kind is present;
      a parameter the user gave keeps the user's value, one the user did not give keeps its
      default, and a given parameter outside the kind's set is carried through unfiltered. */
  function Merge(kind: string, params: Params): (r: Params)
    ensures r.Keys == DefaultParams(kind).Keys + params.Keys
    ensures forall key :: key in params ==> r[key] == params[key]
    ensures forall key :: key in r && key !in params ==> r[key] == DefaultValue(key)
  {
    DefaultParams(kind) + params
  }

  /** The merge for a kind holds at least the kind's parameters, and only names from
      `ParameterNames` when the given parameters do. */
  lemma MergeKeys(k: Kind, params: Params)
    requires params.Keys <= ParameterNames
    ensures Keys(k) <= Merge(Name(k), params).Keys <= ParameterNames
  {
  }
}

=== FILE: findings.dfy ===
/** Step facts for the keyword-order findings: which entries cannot touch which text, and the
    single replacements that do happen. Each fact is about literal text and literal entries. */
module KeywordSteps {
  import opened Text
  import opened Keywords
  import opened Translate

  lemma DeclaredRussianOnKosinus()
    ensures forall k :: 0 <= k < |Russian| ==> Inert("kosinus", Russian[k])
  {
    forall k | 0 <= k < |Russian| ensures Inert("kosinus", Russian[k]) {
      assert Russian[k].key != [] && Russian[k].key[0] >= '\U{400}';
    }
  }

  lemma ReorderedRussianOnKosinus()
    ensures forall k :: 0 <= k < |RussianLongestFirst| ==> Inert("kosinus", RussianLongestFirst[k])
  {
    forall k | 0 <= k < |RussianLongestFirst| ensures Inert("kosinus", RussianLongestFirst[k]) {
      assert RussianLongestFirst[k].key != [] && RussianLongestFirst[k].key[0] >= '\U{400}';
    }
  }

  /** Neither spelling of cosine holds an upper-case letter. */
  lemma CosineWordsLowerCase()
    ensures Lower("kosinus") == "kosinus" && Lower("косинус") == "косинус"
  {
    assert NoUpper("kosinus");
    assert NoUpper("косинус");
  }

  /** "sinus" inside "kosinus" becomes "sine". */
  lemma SinusInKosinus()
    ensures ReplaceAll("kosinus", "sinus", "sine") == "kosine"
  {
    ReplaceAllKeep("kosinus", "sinus", "sine");
    ReplaceAllKeep("osinus", "sinus", "sine");
    ReplaceAllTake("sinus", "sinus", "sine", "");
  }

  /** "синус" inside "косинус" becomes "sine". */
  lemma SinusInCyrillicKosinus()
    ensures ReplaceAll("косинус", "синус", "sine") == "коsine"
  {
    ReplaceAllKeep("косинус", "синус", "sine");
    ReplaceAllKeep("осинус", "синус", "sine");
    ReplaceAllTake("синус", "синус", "sine", "");
  }

  /** A whole key is replaced by its target. */
  lemma WholeKey(key: string, target: string)
    requires key != []
    ensures ReplaceAll(key, key, target) == target
  {
    ReplaceAllTake(key, key, target, "");
  }

  lemma DeclaredEstonianBeforeSinus()
    ensures forall k :: 0 <= k < 2 ==> Inert("kosinus", Estonian[k])
    ensures Estonian[2] == Entry("sinus", "sine")
  {
  }

  lemma DeclaredEstonianAfterSinus()
    ensures forall k :: 3 <= k < |Estonian| ==> Inert("kosine", Estonian[k])
  {
  }

  lemma DeclaredRussianBeforeSinus()
    ensures forall k :: 0 <= k < 4 ==> Inert("косинус", Russian[k])
    ensures Russian[4] == Entry("синус", "sine")
  {
  }

  lemma DeclaredRussianAfterSinus()
    ensures forall k :: 5 <= k < |Russian| ==> Inert("коsine", Russian[k])
  {
  }

  lemma DeclaredEstonianOnMixed()
    ensures forall k :: 0 <= k < |Estonian| ==> Inert("коsine", Estonian[k])
  {
  }

  lemma ReorderedEstonianBeforeKosinus()
    ensures forall k :: 0 <= k < 2 ==> Inert("kosinus", EstonianLongestFirst[k])
    ensures EstonianLongestFirst[2] == Entry("kosinus", "cosine")
  {
  }

  lemma ReorderedRussianBeforeKosinus()
    ensures forall k :: 0 <= k < 5 ==> Inert("косинус", RussianLongestFirst[k])
    ensures RussianLongestFirst[5] == Entry("косинус", "cosine")
  {
  }

  lemma ReorderedRussianAfterKosinus()
    ensures forall k :: 6 <= k < |RussianLongestFirst| ==> Inert("cosine", RussianLongestFirst[k])
  {
  }

  lemma ReorderedEstonianAfterKosinus()
    ensures forall k :: 3 <= k < |EstonianLongestFirst| ==> Inert("cosine", EstonianLongestFirst[k])
  {
  }

  lemma ReorderedEstonianOnCosine()
    ensures forall k :: 0 <= k < |EstonianLongestFirst| ==> Inert("cosine", EstonianLongestFirst[k])
  {
  }
}

/** The keyword table as declared replaces "sinus" before "kosinus" and "синус" before
    "косинус", so both words for cosine are spoiled; the corrected table `CorrectedTable`, with
    "синус" and "sinus" moved after the keys that contain them, normalises both to "cosine". */
module Findings {
  import opened Wrappers
  import opened Text
  import opened Catalog
  import opened Keywords
  import opened Translate
  import opened Patterns
  import opened Interpreter
  import opened KeywordSteps
  import opened Page

  /** The corrected table is the declared one with two moves: "синус" goes after "синусоида" and
      "косинус", and "sinus" after "kosinus"; every other entry keeps its place. */
  lemma TableIsReordering()
    ensures RussianLongestFirst == Russian[..4] + [Russian[5], Russian[6], Russian[4]] + Russian[7..]
    ensures EstonianLongestFirst == Estonian[..2] + [Estonian[3], Estonian[2]] + Estonian[4..]
    ensures DeclaredTable == Russian + Estonian + English && CorrectedTable == RussianLongestFirst + EstonianLongestFirst + English
  {
  }

  /** With the declared order, Estonian "kosinus" comes out as "kosine". */
  lemma DeclaredEstonianFold()
    ensures Rewrite(Rewrite("kosinus", Russian, 0), Estonian, 0) == "kosine"
  {
    DeclaredRussianOnKosinus();
    RewriteSkip("kosinus", Russian, 0, |Russian|);
    DeclaredEstonianBeforeSinus();
    RewriteSkip("kosinus", Estonian, 0, 2);
    SinusInKosinus();
    DeclaredEstonianAfterSinus();
    RewriteSkip("kosine", Estonian, 3, |Estonian|);
  }

  /** With the declared order, Russian "косинус" comes out as "коsine". */
  lemma DeclaredRussianFold()
    ensures Rewrite(Rewrite("косинус", Russian, 0), Estonian, 0) == "коsine"
  {
    DeclaredRussianBeforeSinus();
    RewriteSkip("косинус", Russian, 0, 4);
    SinusInCyrillicKosinus();
    DeclaredRussianAfterSinus();
    RewriteSkip("коsine", Russian, 5, |Russian|);
    DeclaredEstonianOnMixed();
    RewriteSkip("коsine", Estonian, 0, |Estonian|);
  }

  /** With the reordered table, Estonian "kosinus" comes out as "cosine". */
  lemma ReorderedEstonianFold()
    ensures Rewrite(Rewrite("kosinus", RussianLongestFirst, 0), EstonianLongestFirst, 0) == "cosine"
  {
    ReorderedRussianOnKosinus();
    RewriteSkip("kosinus", RussianLongestFirst, 0, |RussianLongestFirst|);
    ReorderedEstonianBeforeKosinus();
    RewriteSkip("kosinus", EstonianLongestFirst, 0, 2);
    WholeKey("kosinus", "cosine");
    ReorderedEstonianAfterKosinus();
    RewriteSkip("cosine", EstonianLongestFirst, 3, |EstonianLongestFirst|);
  }

  /** With the reordered table, Russian "косинус" comes out as "cosine". */
  lemma ReorderedRussianFold()
    ensures Rewrite(Rewrite("косинус", RussianLongestFirst, 0), EstonianLongestFirst, 0) == "cosine"
  {
    ReorderedRussianBeforeKosinus();
    RewriteSkip("косинус", RussianLongestFirst, 0, 5);
    WholeKey("косинус", "cosine");
    ReorderedRussianAfterKosinus();
    RewriteSkip("cosine", RussianLongestFirst, 6, |RussianLongestFirst|);
    ReorderedEstonianOnCosine();
    RewriteSkip("cosine", EstonianLongestFirst, 0, |EstonianLongestFirst|);
  }

  /** Already normalised text is its own normal form. */
  lemma NormalizeFixed(t: seq<Entry>, text: string, out: string)
    requires TranslateWith(t, text) == out && NoUpper(out)
    requires out != [] && !IsSpace(out[0]) && !IsSpace(out[|out| - 1])
    ensures Normalize(t, text) == out
  {
    SkipSpacesTo(out, 0, 0);
  }

  /** A word that fails `CannotOccur`'s test does not match. */
  lemma NoWord(s: string, w: string)
    requires w != []
    requires |w| > |s| || w[0] !in s[..|s| - |w| + 1] || w[|w| - 1] !in s[|w| - 1..]
    ensures !HasWordFrom(s, w, 0)
  {
    CannotOccur(s, w);
    AbsentWord(s, w);
  }

  /** In a six-letter text "sine" can only stand at index 2 when that is the only 's' in a
      place where it could start. */
  lemma SineOnlyAtTwo(s: string)
    requires |s| == 6 && s[0] != 's' && s[1] != 's'
    ensures forall j :: OccursAt(s, j, "sine") ==> j == 2
  {
    forall j | OccursAt(s, j, "sine") ensures j == 2 {
      assert s[j] == s[j..j + 4][0];
    }
  }

  /** "kosine" matches no pattern: "sine" occurs only after the word character 'o'. */
  lemma KosineMatchesNothing(s: string)
    requires s == "kosine"
    ensures Classify(s) == None
  {
    NoWord(s, "linear");
    NoWord(s, "quadratic");
    NoWord(s, "cubic");
    SineOnlyAtTwo(s);
    EmbeddedWord(s, "sine", 2);
    NoWord(s, "cosine");
    NoWord(s, "tangent");
    NoWord(s, "exponential");
    NoWord(s, "logarithmic");
    NoWord(s, "absolute");
    NoWord(s, "square-root");
    NoWord(s, "squareroot");
    forall k ensures !Matches(s, k) {
    }
  }

  /** "коsine" is read as a sine: the Cyrillic 'о' is no word character, so "sine" starts at a
      word boundary. */
  lemma MixedKosineIsSine(s: string)
    requires s == "коsine"
    ensures Classify(s) == Some(Sine)
  {
    assert WordAt(s, 2, "sine");
    NoWord(s, "linear");
    NoWord(s, "quadratic");
    NoWord(s, "cubic");
    forall k | Rank(k) < Rank(Sine) ensures !Matches(s, k) {
    }
    ClassifyFirstMatch(s, Sine);
  }

  /** "cosine" is read as a cosine: "sine" inside it follows the word character 'o'. */
  lemma CosineIsCosine(s: string)
    requires s == "cosine"
    ensures Classify(s) == Some(Cosine)
  {
    assert WordAt(s, 0, "cosine");
    NoWord(s, "linear");
    NoWord(s, "quadratic");
    NoWord(s, "cubic");
    SineOnlyAtTwo(s);
    EmbeddedWord(s, "sine", 2);
    forall k | Rank(k) < Rank(Cosine) ensures !Matches(s, k) {
    }
    ClassifyFirstMatch(s, Cosine);
  }

  lemma DeclaredTranslationEstonian()
    ensures TranslateWith(DeclaredTable, "kosinus") == "kosine"
  {
    CosineWordsLowerCase();
    EnglishEntriesInert("kosinus", Russian, Estonian);
    DeclaredEstonianFold();
  }

  lemma DeclaredTranslationRussian()
    ensures TranslateWith(DeclaredTable, "косинус") == "коsine"
  {
    CosineWordsLowerCase();
    EnglishEntriesInert("косинус", Russian, Estonian);
    DeclaredRussianFold();
  }

  lemma NormalForms()
    ensures NoUpper("kosine") && NoUpper("коsine") && NoUpper("cosine")
  {
  }

  /** As declared, the table turns Estonian "kosinus" into "kosine", and no type is detected. */
  lemma DeclaredOrderLosesKosinus()
    ensures Translated("kosinus") == "kosine"
    ensures Interpret("kosinus").kind == None
  {
    DeclaredTranslationEstonian();
    NormalForms();
    NormalizeFixed(DeclaredTable, "kosinus", "kosine");
    KosineMatchesNothing("kosine");
  }

  /** So typing "kosinus" and pressing the plot button only raises the alert. */
  lemma DeclaredOrderAlertsOnKosinus(selected: string, inputs: Params)
    ensures OnPlotClick(Some("kosinus"), selected, inputs) == Alert("Could not detect function type.")
  {
    var text := "kosinus";
    assert !IsSpace(text[0]) && !IsSpace(text[|text| - 1]);
    TrimKeeps(text);
    DeclaredOrderLosesKosinus();
  }

  /** Text without white space at either end is its own trim. */
  lemma TrimKeeps(s: string)
    requires s != [] && !IsSpace(s[0]) && !IsSpace(s[|s| - 1])
    ensures Trim(s) == s
  {
    SkipSpacesTo(s, 0, 0);
  }

  /** As declared, the table turns Russian "косинус" into "коsine", which is detected as a sine. */
  lemma DeclaredOrderMisreadsKosinus()
    ensures Translated("косинус") == "коsine"
    ensures Interpret("косинус").kind == Some(Sine)
  {
    DeclaredTranslationRussian();
    NormalForms();
    NormalizeFixed(DeclaredTable, "косинус", "коsine");
    MixedKosineIsSine("коsine");
  }

  lemma ReorderedTranslationEstonian()
    ensures TranslateWith(CorrectedTable, "kosinus") == "cosine"
  {
    CosineWordsLowerCase();
    EnglishEntriesInert("kosinus", RussianLongestFirst, EstonianLongestFirst);
    ReorderedEstonianFold();
  }

  lemma ReorderedTranslationRussian()
    ensures TranslateWith(CorrectedTable, "косинус") == "cosine"
  {
    CosineWordsLowerCase();
    EnglishEntriesInert("косинус", RussianLongestFirst, EstonianLongestFirst);
    ReorderedRussianFold();
  }

  /** With the corrected table, both spellings of cosine are detected as a cosine. */
  lemma ReorderedTableReadsCosine()
    ensures TranslateWith(CorrectedTable, "kosinus") == "cosine"
    ensures InterpretWith(CorrectedTable, "kosinus").kind == Some(Cosine)
    ensures TranslateWith(CorrectedTable, "косинус") == "cosine"
    ensures InterpretWith(CorrectedTable, "косинус").kind == Some(Cosine)
  {
    ReorderedTranslationEstonian();
    ReorderedTranslationRussian();
    NormalForms();
    NormalizeFixed(CorrectedTable, "kosinus", "cosine");
    NormalizeFixed(CorrectedTable, "косинус", "cosine");
    CosineIsCosine("cosine");
  }
}

=== FILE: generate.dfy ===
/** `generateXYData` (script.js): walk `x` from `-range` to `range` in steps of 0.1, evaluate the
    chosen function at each `x`, and keep the points whose value is a finite number. The
    arithmetic of the ten formulas is not modelled: it is a parameter, and only what the loop and
    its filter do with the values is. */
module Generate {
  import opened Wrappers
  import opened Catalog

  /** An IEEE double as far as `isFinite` can tell: a finite value, NaN or an infinity. */
  datatype Float = Finite(value: real) | NaN | Infinity(negative: bool)

  /** The formulas of the `switch`: the value of kind `k` with parameters `params` at `x`. */
  type Evaluator = (Kind, Params, real) -> Float

  /** The grid step. */
  const Step: real := 0.1

  /** `Math.PI` to the digits JavaScript prints. */
  const Pi: real := 3.141592653589793

  /** Half the sampled interval: 6π for the three trigonometric kinds, 30 for every other name. */
  function Range(kind: string): (r: real)
    ensures r > 0.0
    ensures kind in ["sine", "cosine", "tangent"] ==> r == 6.0 * Pi
  {
    if kind in ["sine", "cosine", "tangent"] then 6.0 * Pi else 30.0
  }

  /** The `n`-th value of the loop variable, in exact arithmetic. */
  function GridPoint(range: real, n: nat): real {
    -range + n as real * Step
  }

  /** How many grid points the loop visits: exactly those not beyond `range`. */
  function GridSize(range: real): (c: nat)
    requires range >= 0.0
    ensures forall n: nat :: n < c <==> GridPoint(range, n) <= range
  {
    (2.0 * range / Step).Floor + 1
  }

  /** In exact arithmetic, the loop visits 601 points for most kinds and 377 for the
      trigonometric ones. */
  lemma GridSizes()
    ensures GridSize(30.0) == 601
    ensures GridSize(6.0 * Pi) == 377
  {
  }

  /** `yi` at `x`: `null` (`None`) when the `switch` knows no such kind, and for logarithmic at
      `x = 0`; otherwise the kind's formula. */
  function Sample(kind: string, params: Params, eval: Evaluator, x: real): (r: Option<Float>)
    ensures r.None? <==> KindOf(kind).None? || (KindOf(kind) == Some(Logarithmic) && x == 0.0)
  {
    match KindOf(kind)
    case None => None
    case Some(k) => if k == Logarithmic && x == 0.0 then None else Some(eval(k, params, x))
  }

  /** `yi !== null && isFinite(yi)`. */
  predicate Kept(y: Option<Float>) {
    y.Some? && y.value.Finite?
  }

  datatype Point = Point(x: real, y: real)

  /** The points kept among the first `n` grid points, in the order the loop visits them: at
      most one per grid point, and none for a name the `switch` does not know. */
  function Points(kind: string, params: Params, eval: Evaluator, n: nat): (r: seq<Point>)
    ensures |r| <= n
    ensures KindOf(kind).None? ==> r == []
  {
    if n == 0 then []
    else
      var x := GridPoint(Range(kind), n - 1);
      var y := Sample(kind, params, eval, x);
      Points(kind, params, eval, n - 1) + (if Kept(y) then [Point(x, y.value.value)] else [])
  }

  /** The points `generateXYData(kind, params)` returns: at most one per grid point, and none
      for a name the `switch` does not know. */
  function Plot(kind: string, params: Params, eval: Evaluator): (r: seq<Point>)
    ensures |r| <= GridSize(Range(kind))
    ensures KindOf(kind).None? ==> r == []
  {
    Points(kind, params, eval, GridSize(Range(kind)))
  }

  /** `generateXYData`: the loop appends to `x` and `y` together, so the two arrays pair up into
      exactly the points of `Plot`. */
  method GenerateXYData(kind: string, params: Params, eval: Evaluator) returns (xs: seq<real>, ys: seq<real>)
    ensures |xs| == |ys| == |Plot(kind, params, eval)|
    ensures forall j :: 0 <= j < |xs| ==> Plot(kind, params, eval)[j] == Point(xs[j], ys[j])
  {
    xs, ys := [], [];
    var range := Range(kind);
    var i := -range;
    ghost var n: nat := 0;
    while i <= range
      invariant n <= GridSize(range) && i == GridPoint(range, n)
      invariant |xs| == |ys| == |Points(kind, params, eval, n)|
      invariant forall j :: 0 <= j < |xs| ==> Points(kind, params, eval, n)[j] == Point(xs[j], ys[j])
      decreases GridSize(range) - n
    {
      var xi := i;
      var yi := Sample(kind, params, eval, xi);
      if Kept(yi) {
        xs := xs + [xi];
        ys := ys + [yi.value.value];
      }
      i := i + Step;
      n := n + 1;
    }
  }

  /** Every kept point lies on the grid, and its `y` is the finite value sampled there. */
  lemma {:induction false} PointsSound(kind: string, params: Params, eval: Evaluator, n: nat, j: nat) returns (m: nat)
    requires j < |Points(kind, params, eval, n)|
    ensures m < n
    ensures var p := Points(kind, params, eval, n)[j];
            p.x == GridPoint(Range(kind), m) && Sample(kind, params, eval, p.x) == Some(Finite(p.y))
  {
    var prev := Points(kind, params, eval, n - 1);
    if j < |prev| {
      assert Points(kind, params, eval, n)[j] == prev[j];
      m := PointsSound(kind, params, eval, n - 1, j);
    } else {
      m := n - 1;
    }
  }

  /** Every grid point whose sampled value is finite is kept. */
  lemma {:induction false} PointsComplete(kind: string, params: Params, eval: Evaluator, n: nat, m: nat)
    requires m < n
    requires Kept(Sample(kind, params, eval, GridPoint(Range(kind), m)))
    ensures Point(GridPoint(Range(kind), m), Sample(kind, params, eval, GridPoint(Range(kind), m)).value.value)
            in Points(kind, params, eval, n)
  {
    if m < n - 1 {
      PointsComplete(kind, params, eval, n - 1, m);
    }
  }

  /** The kept points stay in grid order: strictly increasing `x`, all within the range and
      before the `n`-th grid point. */
  lemma {:induction false} PointsAscending(kind: string, params: Params, eval: Evaluator, n: nat)
    ensures forall j, k :: 0 <= j < k < |Points(kind, params, eval, n)| ==>
              Points(kind, params, eval, n)[j].x < Points(kind, params, eval, n)[k].x
    ensures forall j :: 0 <= j < |Points(kind, params, eval, n)| ==>
              -Range(kind) <= Points(kind, params, eval, n)[j].x < GridPoint(Range(kind), n)
  {
    if n > 0 {
      PointsAscending(kind, params, eval, n - 1);
      var prev := Points(kind, params, eval, n - 1);
      var ps := Points(kind, params, eval, n);
      var x := GridPoint(Range(kind), n - 1);
      assert -Range(kind) <= x < GridPoint(Range(kind), n);
      forall j | 0 <= j < |ps| ensures -Range(kind) <= ps[j].x < GridPoint(Range(kind), n) {
        if j < |prev| {
          assert ps[j] == prev[j];
          assert prev[j].x < x;
        } else {
          assert ps[j].x == x;
        }
      }
      forall j, k | 0 <= j < k < |ps| ensures ps[j].x < ps[k].x {
        assert ps[j] == prev[j];
        if k < |prev| {
          assert ps[k] == prev[k];
        }
      }
    }
  }

  /** A kept point for every finite sample of the grid and for nothing else: every kept `x` is
      a grid point, in increasing order within the range. */
  lemma PlotCharacterised(kind: string, params: Params, eval: Evaluator)
    ensures var ps := Plot(kind, params, eval);
            (forall j, k :: 0 <= j < k < |ps| ==> ps[j].x < ps[k].x) &&
            (forall j :: 0 <= j < |ps| ==> -Range(kind) <= ps[j].x <= Range(kind)) &&
            (forall j :: 0 <= j < |ps| ==> exists m: nat :: m < GridSize(Range(kind)) && ps[j].x == GridPoint(Range(kind), m)) &&
            (forall j :: 0 <= j < |ps| ==> Sample(kind, params, eval, ps[j].x) == Some(Finite(ps[j].y))) &&
            (forall m: nat :: m < GridSize(Range(kind)) && Kept(Sample(kind, params, eval, GridPoint(Range(kind), m))) ==>
               Point(GridPoint(Range(kind), m), Sample(kind, params, eval, GridPoint(Range(kind), m)).value.value) in ps)
  {
    var size := GridSize(Range(kind));
    var ps := Plot(kind, params, eval);
    PointsAscending(kind, params, eval, size);
    forall j | 0 <= j < |ps|
      ensures ps[j].x <= Range(kind) && Sample(kind, params, eval, ps[j].x) == Some(Finite(ps[j].y))
      ensures exists m: nat :: m < size && ps[j].x == GridPoint(Range(kind), m)
    {
      var m := PointsSound(kind, params, eval, size, j);
    }
    forall m: nat | m < size && Kept(Sample(kind, params, eval, GridPoint(Range(kind), m)))
      ensures Point(GridPoint(Range(kind), m), Sample(kind, params, eval, GridPoint(Range(kind), m)).value.value) in ps
    {
      PointsComplete(kind, params, eval, size, m);
    }
  }

  /** A logarithmic plot never has a point at `x = 0`, whatever the evaluator. */
  lemma LogarithmicSkipsZero(params: Params, eval: Evaluator)
    ensures forall p :: p in Plot("logarithmic", params, eval) ==> p.x != 0.0
  {
    var ps := Plot("logarithmic", params, eval);
    forall p | p in ps ensures p.x != 0.0 {
      var j :| 0 <= j < |ps| && ps[j] == p;
      var m := PointsSound("logarithmic", params, eval, GridSize(Range("logarithmic")), j);
    }
  }
}

=== FILE: interpret.dfy ===
/** The two fixed tables of `parseUserInput` (script.js): the order in which the kinds' patterns
    are tried, and the parameter names the parameter pattern accepts. */
module Patterns {
  import opened Catalog

  /** The order in which the kinds' patterns are tried: the declaration order of the pattern
      table, which differs from the order of the `Kind` constructors. */
  const Order: seq<Kind> :=
    [Quadratic, Linear, Cubic, Sine, Cosine, Tangent, Exponential, Logarithmic, Absolute, SquareRoot]

  /** The position of a kind in `Order`. */
  function Rank(k: Kind): (n: nat)
    ensures n < |Order| && Order[n] == k
  {
    match k
    case Quadratic => 0
    case Linear => 1
    case Cubic => 2
    case Sine => 3
    case Cosine => 4
    case Tangent => 5
    case Exponential => 6
    case Logarithmic => 7
    case Absolute => 8
    case SquareRoot => 9
  }

  /** Every kind occurs in `Order` exactly once. */
  lemma OrderRank()
    ensures forall j :: 0 <= j < |Order| ==> Rank(Order[j]) == j
  {
  }

  /** The alternatives of `(amplitude|frequency|phase|a|b|c|d)`, in the order they are tried. */
  const Alternatives: seq<string> := ["amplitude", "frequency", "phase", "a", "b", "c", "d"]

  /** The alternatives are exactly the parameter names. */
  lemma AlternativesAreParameterNames()
    ensures forall w :: w in Alternatives <==> w in ParameterNames
  {
  }
}

/** `parseUserInput` (script.js): the input is normalised, classified by the first kind whose
    pattern occurs as a whole word, and every `name [=:] number` phrase in it sets a parameter;
    a linear function described as having a "negative slope" gets `a = -1`. */
module Interpreter {
  import opened Wrappers
  import opened Text
  import opened Catalog
  import opened Keywords
  import opened Translate
  import opened Patterns

  /** A word character sits at position `i` (positions outside the text are not word
      characters). */
  predicate WordCharAt(s: string, i: int) {
    0 <= i < |s| && IsWordChar(s[i])
  }

  /** `\b` at position `i`: a word character on exactly one side. */
  predicate Boundary(s: string, i: int) {
    WordCharAt(s, i - 1) != WordCharAt(s, i)
  }

  /** `\bw\b` matches at position `i`. */
  predicate WordAt(s: string, i: int, w: string) {
    Boundary(s, i) && OccursAt(s, i, w) && Boundary(s, i + |w|)
  }

  /** `/\bw\b/.test(s[i..])` with the boundaries judged in the whole text: some match at or
      after `i`. */
  function HasWordFrom(s: string, w: string, i: nat): (b: bool)
    requires i <= |s|
    ensures b <==> exists j :: i <= j && WordAt(s, j, w)
    decreases |s| - i
  {
    if i + |w| > |s| then false
    else if WordAt(s, i, w) then true
    else if i == |s| then false
    else HasWordFrom(s, w, i + 1)
  }

  /** `patterns[kind].test(input)`: the kind's name as a whole word; the square root's pattern
      `\bsquare\-?root\b` also accepts the spelling without the hyphen. */
  predicate Matches(s: string, k: Kind) {
    HasWordFrom(s, Name(k), 0) || (k == SquareRoot && HasWordFrom(s, "squareroot", 0))
  }

  /** A kind's pattern matches exactly when its name occurs as a whole word, or, for the square
      root, when "squareroot" does; so the hyphen-less spelling alone is read as a square root. */
  lemma MatchesWholeWord(s: string, k: Kind)
    ensures Matches(s, k) <==> (exists j :: WordAt(s, j, Name(k))) ||
                               (k == SquareRoot && exists j :: WordAt(s, j, "squareroot"))
    ensures Matches("squareroot", SquareRoot)
  {
    assert WordAt("squareroot", 0, "squareroot");
  }

  /** Whether each kind's pattern matches `s`, in the order the patterns are tried. */
  function Verdicts(s: string): (v: seq<bool>)
    ensures |v| == |Order| && forall j :: 0 <= j < |Order| ==> v[j] == Matches(s, Order[j])
  {
    seq(|Order|, j requires 0 <= j < |Order| => Matches(s, Order[j]))
  }

  /** The first index from `i` on where `v` holds, if any. */
  function FirstFrom(v: seq<bool>, i: nat): (r: Option<nat>)
    requires i <= |v|
    ensures r.Some? ==> i <= r.value < |v| && v[r.value] && forall j :: i <= j < r.value ==> !v[j]
    ensures r.None? ==> forall j :: i <= j < |v| ==> !v[j]
    decreases |v| - i
  {
    if i == |v| then None
    else if v[i] then Some(i)
    else FirstFrom(v, i + 1)
  }

  /** The detected type: a kind whose pattern matches and such that no kind tried before it
      matches, and no type exactly when no pattern matches. */
  function Classify(s: string): (r: Option<Kind>)
    ensures r.Some? ==> Matches(s, r.value) && forall k :: Rank(k) < Rank(r.value) ==> !Matches(s, k)
    ensures r.None? <==> forall k :: !Matches(s, k)
  {
    FirstInOrder(s);
    match FirstFrom(Verdicts(s), 0)
    case Some(n) => Some(Order[n])
    case None => None
  }

  /** The first kind in `Order` whose pattern matches comes before every other matching kind. */
  lemma FirstInOrder(s: string)
    ensures var r := FirstFrom(Verdicts(s), 0);
            (r.Some? ==> Matches(s, Order[r.value]) &&
                         forall k :: Rank(k) < Rank(Order[r.value]) ==> !Matches(s, k)) &&
            (r.None? <==> forall k :: !Matches(s, k))
  {
    var v := Verdicts(s);
    var r := FirstFrom(v, 0);
    if r.Some? {
      OrderRank();
      forall k | Rank(k) < Rank(Order[r.value]) ensures !Matches(s, k) {
        assert !v[Rank(k)];
      }
    } else {
      forall k ensures !Matches(s, k) {
        assert !v[Rank(k)];
      }
    }
  }

  /** Conversely, a kind whose pattern matches while no kind tried before it does is the
      detected type. */
  lemma ClassifyFirstMatch(s: string, k: Kind)
    requires Matches(s, k) && forall j :: Rank(j) < Rank(k) ==> !Matches(s, j)
    ensures Classify(s) == Some(k)
  {
    var r := Classify(s);
    assert r.Some? && Order[Rank(r.value)] == r.value;
  }

  /** A word that does not occur in the text does not match. */
  lemma AbsentWord(s: string, w: string)
    requires !Includes(s, w)
    ensures !HasWordFrom(s, w, 0)
  {
    forall j | 0 <= j ensures !WordAt(s, j, w) {
      assert !OccursAt(s, j, w);
    }
  }

  /** A word whose only occurrence is not at a word boundary does not match. */
  lemma EmbeddedWord(s: string, w: string, j0: int)
    requires forall j :: OccursAt(s, j, w) ==> j == j0
    requires !Boundary(s, j0)
    ensures !HasWordFrom(s, w, 0)
  {
  }

  /** A number as `-?\d+(\.\d+)?` captures it: an optional minus sign, the digits before the
      point and the digits after it (none when there is no fractional part). */
  datatype Number = Number(negative: bool, whole: string, fraction: string)

  predicate AllDigits(t: string) {
    forall k :: 0 <= k < |t| ==> IsDigit(t[k])
  }

  /** A number the pattern can capture: at least one digit before the point. */
  predicate ValidNumber(n: Number) {
    n.whole != [] && AllDigits(n.whole) && AllDigits(n.fraction)
  }

  /** The text of a number, as it stands in the input. */
  function NumberText(n: Number): string {
    (if n.negative then "-" else "") + n.whole + (if n.fraction == [] then "" else "." + n.fraction)
  }

  function DigitValue(c: char): nat {
    if IsDigit(c) then c as int - '0' as int else 0
  }

  /** The value of a decimal digit string. */
  function DigitsValue(t: string): nat {
    if t == [] then 0 else DigitsValue(t[..|t| - 1]) * 10 + DigitValue(t[|t| - 1])
  }

  function Pow10(n: nat): (p: nat)
    ensures p > 0
  {
    if n == 0 then 1 else 10 * Pow10(n - 1)
  }

  /** `parseFloat` of a captured number, as the exact decimal value: its sign is the captured
      sign, its magnitude has the digits before the point as integer part, and moving the
      point past the fraction digits gives the value of all the digits. */
  function Value(n: Number): (r: real)
    ensures n.negative ==> r <= 0.0
    ensures !n.negative ==> r >= 0.0
    ensures var m := if n.negative then -r else r;
            DigitsValue(n.whole) as real <= m < DigitsValue(n.whole) as real + 1.0
    ensures Shift(if n.negative then -r else r, |n.fraction|) == DigitsValue(n.whole + n.fraction) as real
  {
    var m := Magnitude(n.whole, n.fraction);
    assert DigitsValue(n.whole) as real <= m < DigitsValue(n.whole) as real + 1.0 by {
      DigitsQuotientBounds(n.whole, n.fraction);
    }
    if n.negative then -m else m
  }

  /** The value of the digits `whole` and `fraction` written around a decimal point: moving
      the point past the fraction digits gives the value of all the digits. */
  function Magnitude(whole: string, fraction: string): (m: real)
    ensures Shift(m, |fraction|) == DigitsValue(whole + fraction) as real
  {
    var m := Quotient(DigitsValue(whole + fraction), Pow10(|fraction|));
    assert Shift(m, |fraction|) == DigitsValue(whole + fraction) as real by {
      ShiftIsProduct(m, |fraction|);
    }
    m
  }

  /** `m` with its decimal point moved `k` places to the right. */
  function Shift(m: real, k: nat): real {
    if k == 0 then m else Shift(m, k - 1) * 10.0
  }

  /** Moving the point `k` places multiplies by `10^k`. */
  lemma {:induction false} ShiftIsProduct(m: real, k: nat)
    ensures Shift(m, k) == m * Pow10(k) as real
  {
    if k > 0 {
      ShiftIsProduct(m, k - 1);
    }
  }

  /** `x / p` in exact arithmetic. */
  function Quotient(x: nat, p: nat): (q: real)
    requires p > 0
    ensures q * p as real == x as real
  {
    x as real / p as real
  }

  /** All the digits divided by `10^|fraction|` have `whole` as integer part. */
  lemma DigitsQuotientBounds(whole: string, fraction: string)
    ensures DigitsValue(whole) as real <= Quotient(DigitsValue(whole + fraction), Pow10(|fraction|))
    ensures Quotient(DigitsValue(whole + fraction), Pow10(|fraction|)) < DigitsValue(whole) as real + 1.0
  {
    DigitsValueBound(fraction);
    DigitsValueConcat(whole, fraction);
    QuotientBounds(DigitsValue(whole), DigitsValue(fraction), Pow10(|fraction|));
  }

  /** The digits of `a + b` are worth those of `a` shifted past the digits of `b`, plus `b`. */
  lemma {:induction false} DigitsValueConcat(a: string, b: string)
    ensures DigitsValue(a + b) == DigitsValue(a) * Pow10(|b|) + DigitsValue(b)
  {
    if b == [] {
      assert a + b == a;
    } else {
      var b' := b[..|b| - 1];
      var d := DigitValue(b[|b| - 1]);
      assert (a + b)[..|a + b| - 1] == a + b';
      assert (a + b)[|a + b| - 1] == b[|b| - 1];
      DigitsValueConcat(a, b');
      var x, p := DigitsValue(a), Pow10(|b'|);
      calc {
        DigitsValue(a + b);
        DigitsValue(a + b') * 10 + d;
        (x * p + DigitsValue(b')) * 10 + d;
        { TimesTen(x, p); }
        x * (10 * p) + (DigitsValue(b') * 10 + d);
        x * Pow10(|b|) + DigitsValue(b);
      }
    }
  }

  /** Regrouping a product with ten. */
  lemma TimesTen(x: nat, p: nat)
    ensures (x * p) * 10 == x * (10 * p)
  {
  }

  /** `(w * p + d) / p` lies in `[w, w + 1)` when `d < p`. */
  lemma QuotientBounds(w: nat, d: nat, p: nat)
    requires d < p
    ensures w as real <= Quotient(w * p + d, p) < w as real + 1.0
  {
    var q := Quotient(w * p + d, p);
    assert q == w as real + d as real / p as real;
    FractionBelowOne(d, p);
  }

  /** A fraction whose numerator is below its denominator lies in `[0, 1)`. */
  lemma FractionBelowOne(a: nat, b: nat)
    requires a < b
    ensures 0.0 <= a as real / b as real < 1.0
  {
    assert (a as real / b as real) * b as real == a as real;
  }

  /** A string of `k` digits is worth less than `10^k`. */
  lemma {:induction false} DigitsValueBound(t: string)
    ensures DigitsValue(t) < Pow10(|t|)
  {
    if t != [] {
      DigitsValueBound(t[..|t| - 1]);
    }
  }

  /** The end of the run of digits starting at `i`. */
  function DigitsEnd(s: string, i: nat): (j: nat)
    requires i <= |s|
    ensures i <= j <= |s|
    ensures forall k :: i <= k < j ==> IsDigit(s[k])
    ensures j == |s| || !IsDigit(s[j])
    decreases |s| - i
  {
    if i < |s| && IsDigit(s[i]) then DigitsEnd(s, i + 1) else i
  }

  /** A number read from the text and the position just after it. */
  datatype Lexeme = Lexeme(number: Number, end: nat)

  /** The end of `\s*[=:]?\s*` matched greedily at `i`. */
  function SeparatorEnd(s: string, i: nat): (c: nat)
    requires i <= |s|
    ensures i <= c <= |s|
  {
    var a := SkipSpaces(s, i);
    var b := if a < |s| && (s[a] == '=' || s[a] == ':') then a + 1 else a;
    SkipSpaces(s, b)
  }

  /** `-?\d+(\.\d+)?` matched greedily at `c`. */
  function NumberFrom(s: string, c: nat): (r: Option<Lexeme>)
    requires c <= |s|
    ensures r.Some? ==> c < r.value.end <= |s| && ValidNumber(r.value.number)
  {
    var negative := c < |s| && s[c] == '-';
    var d := if negative then c + 1 else c;
    if d < |s| && IsDigit(s[d]) then
      var e := DigitsEnd(s, d);
      if e + 1 < |s| && s[e] == '.' && IsDigit(s[e + 1]) then
        var f := DigitsEnd(s, e + 1);
        Some(Lexeme(Number(negative, s[d..e], s[e + 1..f]), f))
      else
        Some(Lexeme(Number(negative, s[d..e], []), e))
    else
      None
  }

  /** The part `\s*[=:]?\s*(-?\d+(\.\d+)?)` of the parameter pattern, matched at `i`. Each
      quantifier takes as much as it can; giving some back never lets the rest match where it
      did not, so this is also the first match of a backtracking engine. */
  function ValueAt(s: string, i: nat): (r: Option<Lexeme>)
    requires i <= |s|
    ensures r.Some? ==> i < r.value.end <= |s| && ValidNumber(r.value.number)
  {
    NumberFrom(s, SeparatorEnd(s, i))
  }

  predicate AllSpaces(t: string) {
    forall k :: 0 <= k < |t| ==> IsSpace(t[k])
  }

  /** What may follow a number without extending it. */
  predicate Stops(n: Number, rest: string) {
    rest == [] ||
    (!IsDigit(rest[0]) && (n.fraction == [] ==> !(|rest| > 1 && rest[0] == '.' && IsDigit(rest[1]))))
  }

  /** Round trip: a separator (white space around at most one `=` or `:`) followed by the text of
      a number, where the text goes on with something that cannot extend the number, reads back
      as exactly that number, ending right after it. */
  lemma ValueAtRoundTrip(p: string, sp1: string, mark: string, sp2: string, n: Number, rest: string)
    requires AllSpaces(sp1) && AllSpaces(sp2) && (mark == "" || mark == "=" || mark == ":")
    requires ValidNumber(n) && Stops(n, rest)
    ensures ValueAt(p + sp1 + mark + sp2 + NumberText(n) + rest, |p|) ==
            Some(Lexeme(n, |p + sp1 + mark + sp2 + NumberText(n)|))
  {
    RoundTripSeparator(p, sp1, mark, sp2, n, rest);
    RoundTripNumber(p + sp1 + mark + sp2, n, rest);
    ValueAtIs(p + sp1 + mark + sp2 + NumberText(n) + rest, |p|, |p + sp1 + mark + sp2|);
  }

  lemma RoundTripSeparator(p: string, sp1: string, mark: string, sp2: string, n: Number, rest: string)
    requires AllSpaces(sp1) && AllSpaces(sp2) && (mark == "" || mark == "=" || mark == ":")
    requires ValidNumber(n)
    ensures SeparatorEnd(p + sp1 + mark + sp2 + NumberText(n) + rest, |p|) == |p + sp1 + mark + sp2|
  {
    var t := NumberText(n) + rest;
    assert p + sp1 + mark + sp2 + NumberText(n) + rest == p + sp1 + mark + sp2 + t;
    assert t[0] == '-' || IsDigit(t[0]) by {
      if !n.negative {
        assert t[0] == n.whole[0];
      }
    }
    SeparatorEndOf(p, sp1, mark, sp2, t);
  }

  lemma RoundTripNumber(q: string, n: Number, rest: string)
    requires ValidNumber(n) && Stops(n, rest)
    ensures NumberFrom(q + NumberText(n) + rest, |q|) == Some(Lexeme(n, |q + NumberText(n)|))
  {
    var s := q + NumberText(n) + rest;
    assert s[|q|..|q| + |NumberText(n)|] == NumberText(n);
    assert s[|q| + |NumberText(n)|..] == rest;
    NumberFromText(s, |q|, n);
  }

  /** `ValueAt` reads the number where the separator ends. */
  lemma ValueAtIs(s: string, i: nat, c: nat)
    requires i <= |s| && SeparatorEnd(s, i) == c
    ensures ValueAt(s, i) == NumberFrom(s, c)
  {
  }

  /** The separator `SeparatorEnd` reads is white space around at most one `=` or `:`, and it
      takes all of it: it stops at a character that is not white space, and at a mark only when
      it has already taken one. */
  lemma SeparatorEndShape(s: string, i: nat)
    requires i <= |s|
    ensures var c := SeparatorEnd(s, i);
            (c == |s| || !IsSpace(s[c])) &&
            (forall k :: i <= k < c && !IsSpace(s[k]) ==> s[k] == '=' || s[k] == ':') &&
            (forall k, l :: i <= k < l < c ==> IsSpace(s[k]) || IsSpace(s[l])) &&
            (c < |s| && (s[c] == '=' || s[c] == ':') ==> exists k :: i <= k < c && !IsSpace(s[k]))
  {
    var a := SkipSpaces(s, i);
    if a < |s| && (s[a] == '=' || s[a] == ':') {
      var c := SkipSpaces(s, a + 1);
      assert forall k :: i <= k < c && k != a ==> IsSpace(s[k]);
      assert !IsSpace(s[a]);
    }
  }

  /** There is a number at `c` exactly when a digit follows the optional minus sign. */
  lemma NumberFromNone(s: string, c: nat)
    requires c <= |s|
    ensures var d := if c < |s| && s[c] == '-' then c + 1 else c;
            NumberFrom(s, c).None? <==> !(d < |s| && IsDigit(s[d]))
  {
  }

  /** What `NumberFrom` reads is the text of the number it returns, and the text after it
      cannot extend that number: the match is the longest one. */
  lemma NumberFromReads(s: string, c: nat)
    requires c <= |s| && NumberFrom(s, c).Some?
    ensures var l := NumberFrom(s, c).value;
            s[c..l.end] == NumberText(l.number) && Stops(l.number, s[l.end..])
  {
    var negative := c < |s| && s[c] == '-';
    var d := if negative then c + 1 else c;
    var e := DigitsEnd(s, d);
    if e + 1 < |s| && s[e] == '.' && IsDigit(s[e + 1]) {
      var f := DigitsEnd(s, e + 1);
      NumberFromFraction(s, c, negative, d, e, f);
      FractionReads(s, c, negative, d, e, f);
    } else {
      NumberFromWhole(s, c, negative, d, e);
      WholeReads(s, c, negative, d, e);
    }
  }

  /** The value part at `i`: there is a value exactly when a digit follows the separator and the
      optional minus sign, and then the text after the separator is the text of the number read,
      which the rest of the text cannot extend. */
  lemma ValueAtReads(s: string, i: nat)
    requires i <= |s|
    ensures var c := SeparatorEnd(s, i);
            var d := if c < |s| && s[c] == '-' then c + 1 else c;
            (ValueAt(s, i).None? <==> !(d < |s| && IsDigit(s[d]))) &&
            (ValueAt(s, i).Some? ==>
               var l := ValueAt(s, i).value;
               s[c..l.end] == NumberText(l.number) && Stops(l.number, s[l.end..]))
  {
    var c := SeparatorEnd(s, i);
    NumberFromNone(s, c);
    if NumberFrom(s, c).Some? {
      NumberFromReads(s, c);
    }
  }

  /** The text of a number with a fractional part, once its pieces are located. */
  lemma FractionReads(s: string, c: nat, negative: bool, d: nat, e: nat, f: nat)
    requires d == (if negative then c + 1 else c) && (negative ==> c < |s| && s[c] == '-')
    requires d <= e && e + 1 < f <= |s| && s[e] == '.' && (f == |s| || !IsDigit(s[f]))
    ensures var n := Number(negative, s[d..e], s[e + 1..f]);
            s[c..f] == NumberText(n) && Stops(n, s[f..])
  {
    SignText(s, c, negative, d);
    assert s[c..f] == s[c..d] + s[d..e] + ("." + s[e + 1..f]);
    if f < |s| {
      assert s[f..][0] == s[f];
    }
  }

  /** The sign read before the digits is the sign's text. */
  lemma SignText(s: string, c: nat, negative: bool, d: nat)
    requires d == (if negative then c + 1 else c) && d <= |s| && (negative ==> s[c] == '-')
    ensures s[c..d] == if negative then "-" else ""
  {
    if negative {
      assert s[c..d][0] == s[c];
    }
  }

  /** The text of a number without a fractional part, once its pieces are located. */
  lemma WholeReads(s: string, c: nat, negative: bool, d: nat, e: nat)
    requires d == (if negative then c + 1 else c) && (negative ==> c < |s| && s[c] == '-')
    requires d <= e <= |s| && (e == |s| || !IsDigit(s[e]))
    requires !(e + 1 < |s| && s[e] == '.' && IsDigit(s[e + 1]))
    ensures var n := Number(negative, s[d..e], []);
            s[c..e] == NumberText(n) && Stops(n, s[e..])
  {
    SignText(s, c, negative, d);
    assert s[c..e] == s[c..d] + s[d..e];
    if e < |s| {
      assert s[e..][0] == s[e];
    }
    if e + 1 < |s| {
      assert s[e..][1] == s[e + 1];
    }
  }

  /** The separator before a number ends where the number starts. */
  lemma SeparatorEndOf(p: string, sp1: string, mark: string, sp2: string, t: string)
    requires AllSpaces(sp1) && AllSpaces(sp2) && (mark == "" || mark == "=" || mark == ":")
    requires t != [] && (t[0] == '-' || IsDigit(t[0]))
    ensures SeparatorEnd(p + sp1 + mark + sp2 + t, |p|) == |p| + |sp1| + |mark| + |sp2|
  {
    var s := p + sp1 + mark + sp2 + t;
    var q := |p| + |sp1|;
    var c := q + |mark| + |sp2|;
    assert forall j :: |p| <= j < q ==> s[j] == sp1[j - |p|];
    assert forall j :: q + |mark| <= j < c ==> s[j] == sp2[j - q - |mark|];
    assert s[c] == t[0];
    if mark == "" {
      SkipSpacesTo(s, |p|, c);
      SkipSpacesTo(s, c, c);
    } else {
      assert s[q] == mark[0];
      SkipSpacesTo(s, |p|, q);
      SkipSpacesTo(s, q + 1, c);
    }
  }

  /** The text of a number, followed by something that cannot extend it, reads back as that
      number. */
  lemma NumberFromText(s: string, c: nat, n: Number)
    requires ValidNumber(n) && OccursAt(s, c, NumberText(n)) && Stops(n, s[c + |NumberText(n)|..])
    ensures NumberFrom(s, c) == Some(Lexeme(n, c + |NumberText(n)|))
  {
    if n.fraction == [] {
      WholeText(s, c, n);
    } else {
      FractionText(s, c, n);
    }
  }

  /** The sign is read as written: a minus sign exactly when the number is negative. */
  lemma SignAt(s: string, c: nat, n: Number, d: nat)
    requires ValidNumber(n) && d == (if n.negative then c + 1 else c)
    requires OccursAt(s, c, if n.negative then "-" else "") && OccursAt(s, d, n.whole)
    ensures n.negative <==> c < |s| && s[c] == '-'
    ensures d < |s| && IsDigit(s[d])
  {
    assert s[d..d + |n.whole|][0] == s[d];
    if n.negative {
      assert s[c..c + 1][0] == s[c];
    }
  }

  /** A number without a fractional part reads back. */
  lemma WholeText(s: string, c: nat, n: Number)
    requires ValidNumber(n) && n.fraction == []
    requires OccursAt(s, c, NumberText(n)) && Stops(n, s[c + |NumberText(n)|..])
    ensures NumberFrom(s, c) == Some(Lexeme(n, c + |NumberText(n)|))
  {
    var sign := if n.negative then "-" else "";
    assert NumberText(n) == sign + n.whole;
    OccursConcat(s, c, sign, n.whole);
    var d := c + |sign|;
    var e := d + |n.whole|;
    SignAt(s, c, n, d);
    StopsAt(s, e, n);
    DigitsEndOver(s, d, n.whole);
    NumberFromWhole(s, c, n.negative, d, e);
    assert s[d..e] == n.whole;
    assert Number(n.negative, s[d..e], []) == n;
  }

  /** A number with a fractional part reads back. */
  lemma FractionText(s: string, c: nat, n: Number)
    requires ValidNumber(n) && n.fraction != []
    requires OccursAt(s, c, NumberText(n)) && Stops(n, s[c + |NumberText(n)|..])
    ensures NumberFrom(s, c) == Some(Lexeme(n, c + |NumberText(n)|))
  {
    var d, e := FractionPieces(s, c, n);
    FractionAt(s, c, n, d, e);
  }

  /** Where the sign, the whole digits, the point and the fraction digits of an occurrence of
      a number's text lie. */
  lemma FractionPieces(s: string, c: nat, n: Number) returns (d: nat, e: nat)
    requires ValidNumber(n) && n.fraction != [] && OccursAt(s, c, NumberText(n))
    ensures d == (if n.negative then c + 1 else c) && e == d + |n.whole|
    ensures (n.negative <==> c < |s| && s[c] == '-') && d < |s| && IsDigit(s[d]) && OccursAt(s, d, n.whole)
    ensures OccursAt(s, e + 1, n.fraction) && s[e] == '.' && e + 1 + |n.fraction| == c + |NumberText(n)|
  {
    var sign := if n.negative then "-" else "";
    d := c + |sign|;
    e := d + |n.whole|;
    assert NumberText(n) == sign + n.whole + (['.'] + n.fraction);
    OccursConcat(s, c, sign + n.whole, ['.'] + n.fraction);
    OccursConcat(s, c, sign, n.whole);
    SignAt(s, c, n, d);
    OccursCons(s, e, '.', n.fraction);
  }

  /** A number with a fractional part whose pieces are located reads back. */
  lemma FractionAt(s: string, c: nat, n: Number, d: nat, e: nat)
    requires ValidNumber(n) && n.fraction != [] && e == d + |n.whole|
    requires (n.negative <==> c < |s| && s[c] == '-') && d == (if n.negative then c + 1 else c)
    requires d < |s| && IsDigit(s[d]) && OccursAt(s, d, n.whole)
    requires OccursAt(s, e + 1, n.fraction) && s[e] == '.' && Stops(n, s[e + 1 + |n.fraction|..])
    ensures NumberFrom(s, c) == Some(Lexeme(n, e + 1 + |n.fraction|))
  {
    var f := e + 1 + |n.fraction|;
    assert e + 1 < |s| && IsDigit(s[e + 1]) && DigitsEnd(s, d) == e && DigitsEnd(s, e + 1) == f by {
      assert s[e + 1] == n.fraction[0] by {
        assert s[e + 1..f][0] == s[e + 1];
      }
      StopsAt(s, f, n);
      DigitsEndOver(s, d, n.whole);
      DigitsEndOver(s, e + 1, n.fraction);
    }
    NumberFromFraction(s, c, n.negative, d, e, f);
    assert Number(n.negative, s[d..e], s[e + 1..f]) == n;
  }

  /** `NumberFrom` on a number without a fractional part, once its pieces are located. */
  lemma NumberFromWhole(s: string, c: nat, negative: bool, d: nat, e: nat)
    requires c <= |s| && (negative <==> c < |s| && s[c] == '-') && d == (if negative then c + 1 else c)
    requires d < |s| && IsDigit(s[d]) && DigitsEnd(s, d) == e
    requires !(e + 1 < |s| && s[e] == '.' && IsDigit(s[e + 1]))
    ensures NumberFrom(s, c) == Some(Lexeme(Number(negative, s[d..e], []), e))
  {
  }

  /** `NumberFrom` on a number with a fractional part, once its pieces are located. */
  lemma NumberFromFraction(s: string, c: nat, negative: bool, d: nat, e: nat, f: nat)
    requires c <= |s| && (negative <==> c < |s| && s[c] == '-') && d == (if negative then c + 1 else c)
    requires d < |s| && IsDigit(s[d]) && DigitsEnd(s, d) == e
    requires e + 1 < |s| && s[e] == '.' && IsDigit(s[e + 1]) && DigitsEnd(s, e + 1) == f
    ensures NumberFrom(s, c) == Some(Lexeme(Number(negative, s[d..e], s[e + 1..f]), f))
  {
  }

  /** What `Stops` says about the text right after a number ending at `e`. */
  lemma StopsAt(s: string, e: nat, n: Number)
    requires e <= |s| && Stops(n, s[e..])
    ensures e == |s| || !IsDigit(s[e])
    ensures n.fraction == [] ==> !(e + 1 < |s| && s[e] == '.' && IsDigit(s[e + 1]))
  {
    if e < |s| {
      assert s[e..][0] == s[e];
    }
    if e + 1 < |s| {
      assert s[e..][1] == s[e + 1];
    }
  }

  /** A run of digits occurring at `d` and followed by a non-digit is what `DigitsEnd` reads. */
  lemma DigitsEndOver(s: string, d: nat, w: string)
    requires OccursAt(s, d, w) && AllDigits(w) && (d + |w| == |s| || !IsDigit(s[d + |w|]))
    ensures DigitsEnd(s, d) == d + |w|
  {
    forall j | d <= j < d + |w| ensures IsDigit(s[j]) {
      assert s[j] == s[d..d + |w|][j - d];
    }
    DigitsEndTo(s, d, d + |w|);
  }

  /** `DigitsEnd` stops at the first non-digit. */
  lemma DigitsEndTo(s: string, i: nat, k: nat)
    requires i <= k <= |s| && (forall j :: i <= j < k ==> IsDigit(s[j])) && (k == |s| || !IsDigit(s[k]))
    ensures DigitsEnd(s, i) == k
  {
  }

  /** Alternative `w` followed by a value matches at `i`. */
  predicate Works(s: string, i: nat, w: string) {
    OccursAt(s, i, w) && ValueAt(s, i + |w|).Some?
  }

  /** One match of the parameter pattern: where it starts, the captured name and number, and
      where it ends. */
  datatype Match = Match(start: nat, key: string, number: Number, end: nat)

  /** `m` is a match of the parameter pattern in `s`: its name occurs at its start, and the
      value part matches right after the name, capturing its number and ending at its end. */
  predicate Found(s: string, m: Match) {
    OccursAt(s, m.start, m.key) && ValueAt(s, m.start + |m.key|) == Some(Lexeme(m.number, m.end))
  }

  /** Which of the alternatives `alts` work at `i`, in the order the alternation tries them. */
  function Candidates(s: string, i: nat, alts: seq<string>): (v: seq<bool>)
    ensures |v| == |alts| && forall c :: 0 <= c < |alts| ==> v[c] == Works(s, i, alts[c])
  {
    seq(|alts|, c requires 0 <= c < |alts| => Works(s, i, alts[c]))
  }

  /** The pattern at `i` with name alternatives `alts`: the first alternative that works is
      taken, with the value after it. There is a match exactly when some alternative works. */
  function MatchWith(s: string, i: nat, alts: seq<string>): (r: Option<Match>)
    ensures r.Some? ==> r.value.start == i && r.value.key in alts && Found(s, r.value)
    ensures r.None? <==> forall c :: 0 <= c < |alts| ==> !Works(s, i, alts[c])
    ensures r.Some? ==> exists c :: 0 <= c < |alts| && alts[c] == r.value.key &&
                                    forall b :: 0 <= b < c ==> !Works(s, i, alts[b])
  {
    var candidates := Candidates(s, i, alts);
    match FirstFrom(candidates, 0)
    case None =>
      assert forall c :: 0 <= c < |alts| ==> !Works(s, i, alts[c]) by {
        assert forall c :: 0 <= c < |alts| ==> !candidates[c];
      }
      None
    case Some(c) =>
      assert Works(s, i, alts[c]) && forall b :: 0 <= b < c ==> !Works(s, i, alts[b]) by {
        assert candidates[c];
        assert forall b :: 0 <= b < c ==> !candidates[b];
      }
      Some(MatchOf(s, i, alts[c]))
  }

  /** The match of an alternative that works: the name, and the value read after it. */
  function MatchOf(s: string, i: nat, w: string): (m: Match)
    requires Works(s, i, w)
    ensures m.start == i && m.key == w && Found(s, m)
  {
    var l := ValueAt(s, i + |w|);
    assert l == Some(Lexeme(l.value.number, l.value.end));
    Match(i, w, l.value.number, l.value.end)
  }

  /** The parameter pattern at `i`: a parameter name, then a value, ending after the name. */
  function MatchAt(s: string, i: nat): (r: Option<Match>)
    ensures r.Some? ==> r.value.start == i && r.value.key in ParameterNames && Found(s, r.value) &&
                        i + |r.value.key| < r.value.end <= |s| && ValidNumber(r.value.number)
  {
    AlternativesAreParameterNames();
    MatchWith(s, i, Alternatives)
  }

  /** There is no parameter match at `i` exactly when no parameter name followed by a value
      occurs there. */
  lemma NoMatchAt(s: string, i: nat)
    ensures MatchAt(s, i).None? <==> forall w :: w in ParameterNames ==> !Works(s, i, w)
  {
    AlternativesAreParameterNames();
    if MatchAt(s, i).None? {
      forall w | w in ParameterNames ensures !Works(s, i, w) {
        var c :| 0 <= c < |Alternatives| && Alternatives[c] == w;
      }
    }
  }

  /** The pattern's match at every position of `s`, `None` where it does not match. */
  function Hits(s: string): (h: seq<Option<Match>>)
    ensures |h| == |s| && Advancing(h)
    ensures forall i :: 0 <= i < |s| ==> h[i] == MatchAt(s, i)
  {
    seq(|s|, i requires 0 <= i < |s| => MatchAt(s, i))
  }

  /** Each match in `h` starts at its own position and ends after it, within the text. */
  predicate Advancing(h: seq<Option<Match>>) {
    forall i :: 0 <= i < |h| && h[i].Some? ==> h[i].value.start == i && i < h[i].value.end <= |h|
  }

  /** The scan behind `matchAll` over the matches `h` at each position, from position `from`:
      try each position in turn and resume right after each match. */
  function Scan(h: seq<Option<Match>>, from: nat): seq<Match>
    requires Advancing(h) && from <= |h|
    decreases |h| - from
  {
    if from == |h| then []
    else
      match h[from]
      case Some(m) => [m] + Scan(h, m.end)
      case None => Scan(h, from + 1)
  }

  /** `[...s.matchAll(pattern)]` from position `from`: matches of the pattern, in text order. */
  function MatchAll(s: string, from: nat): (r: seq<Match>)
    requires from <= |s|
    ensures InTextOrder(Hits(s), from, r)
  {
    ScanSound(Hits(s), from);
    Scan(Hits(s), from)
  }

  /** `ms` are matches from `h` at or after `from` in text order: each is the match at its own
      start, and none overlaps the next. */
  predicate InTextOrder(h: seq<Option<Match>>, from: nat, ms: seq<Match>) {
    (forall k :: 0 <= k < |ms| ==> from <= ms[k].start < |h| && h[ms[k].start] == Some(ms[k])) &&
    (forall k :: 0 <= k < |ms| - 1 ==> ms[k].end <= ms[k + 1].start)
  }

  /** The scan yields matches in text order. */
  lemma {:induction false} ScanSound(h: seq<Option<Match>>, from: nat)
    requires Advancing(h) && from <= |h|
    ensures InTextOrder(h, from, Scan(h, from))
    decreases |h| - from
  {
    if from < |h| {
      if h[from].Some? {
        var m := h[from].value;
        ScanSound(h, m.end);
        InTextOrderCons(h, from, m, Scan(h, m.end));
      } else {
        ScanSound(h, from + 1);
      }
    }
  }

  lemma InTextOrderCons(h: seq<Option<Match>>, from: nat, m: Match, rest: seq<Match>)
    requires Advancing(h) && from < |h| && h[from] == Some(m) && InTextOrder(h, m.end, rest)
    ensures InTextOrder(h, from, [m] + rest)
  {
    var ms := [m] + rest;
    forall k | 0 <= k < |ms| ensures from <= ms[k].start < |h| && h[ms[k].start] == Some(ms[k]) {
      if k > 0 {
        assert ms[k] == rest[k - 1];
      }
    }
    forall k | 0 <= k < |ms| - 1 ensures ms[k].end <= ms[k + 1].start {
      assert ms[k + 1] == rest[k];
      if k > 0 {
        assert ms[k] == rest[k - 1];
      }
    }
  }

  /** The index of the match of the scan from `from` that covers position `p`, where `h` has a
      match. */
  lemma {:induction false} CoveringMatch(h: seq<Option<Match>>, from: nat, p: nat) returns (k: nat)
    requires Advancing(h) && from <= p < |h| && h[p].Some?
    ensures k < |Scan(h, from)| && Scan(h, from)[k].start <= p < Scan(h, from)[k].end
    decreases |h| - from
  {
    if h[from].None? {
      k := CoveringMatch(h, from + 1, p);
    } else if p < h[from].value.end {
      k := 0;
    } else {
      k := CoveringMatch(h, h[from].value.end, p);
      assert Scan(h, from)[k + 1] == Scan(h, h[from].value.end)[k];
      k := k + 1;
    }
  }

  /** `matchAll` misses nothing: every position where the pattern matches lies inside one of the
      matches found, since the scan resumes right after each match. */
  lemma MatchAllCovers(s: string, from: nat, p: nat)
    requires from <= p < |s| && MatchAt(s, p).Some?
    ensures exists k :: 0 <= k < |MatchAll(s, from)| && MatchAll(s, from)[k].start <= p < MatchAll(s, from)[k].end
  {
    var h := Hits(s);
    assert h[p].Some?;
    var k := CoveringMatch(h, from, p);
    assert MatchAll(s, from) == Scan(h, from);
    assert 0 <= k < |MatchAll(s, from)| && MatchAll(s, from)[k].start <= p < MatchAll(s, from)[k].end;
  }

  /** `matches.forEach(m => params[m[1]] = parseFloat(m[2]))`, starting from no parameters: each
      parameter holds the value of the last match that names it. */
  function Assign(ms: seq<Match>): (r: Params)
    ensures LastValues(ms, r)
    decreases |ms|
  {
    if ms == [] then map[]
    else
      var init := ms[..|ms| - 1];
      var m := ms[|ms| - 1];
      LastValuesStep(init, m, Assign(init));
      assert init + [m] == ms;
      Assign(init)[m.key := Value(m.number)]
  }

  /** Each parameter in `r` holds the value of the last match in `ms` that names it. */
  predicate LastValues(ms: seq<Match>, r: Params) {
    forall key :: key in r ==>
      exists k :: 0 <= k < |ms| && ms[k].key == key && r[key] == Value(ms[k].number) &&
                  forall l :: k < l < |ms| ==> ms[l].key != key
  }

  /** Assigning one more match keeps `LastValues`. */
  lemma LastValuesStep(init: seq<Match>, m: Match, r: Params)
    requires LastValues(init, r)
    ensures LastValues(init + [m], r[m.key := Value(m.number)])
  {
    var ms := init + [m];
    var r' := r[m.key := Value(m.number)];
    forall key | key in r'
      ensures exists k :: 0 <= k < |ms| && ms[k].key == key && r'[key] == Value(ms[k].number) &&
                          forall l :: k < l < |ms| ==> ms[l].key != key
    {
      if key == m.key {
        assert ms[|init|] == m;
      } else {
        var k :| 0 <= k < |init| && init[k].key == key && r[key] == Value(init[k].number) &&
                 forall l :: k < l < |init| ==> init[l].key != key;
        assert ms[k] == init[k];
        forall l | k < l < |ms| ensures ms[l].key != key {
          if l < |init| {
            assert ms[l] == init[l];
          }
        }
      }
    }
  }

  /** The parameters assigned are exactly the names the matches capture. */
  lemma {:induction false} AssignKeys(ms: seq<Match>)
    ensures forall key :: key in Assign(ms) <==> exists k :: 0 <= k < |ms| && ms[k].key == key
    decreases |ms|
  {
    if ms != [] {
      var init := ms[..|ms| - 1];
      AssignKeys(init);
      forall key ensures key in Assign(ms) <==> exists k :: 0 <= k < |ms| && ms[k].key == key {
        if key in Assign(init) {
          var k :| 0 <= k < |init| && init[k].key == key;
          assert ms[k] == init[k];
        }
        if exists k :: 0 <= k < |ms| && ms[k].key == key {
          var k :| 0 <= k < |ms| && ms[k].key == key;
          if k < |init| {
            assert init[k] == ms[k];
          }
        }
      }
    }
  }

  /** The last match naming a parameter decides its value. */
  lemma {:induction false} LastMatchWins(ms: seq<Match>, k: nat)
    requires k < |ms|
    requires forall l :: k < l < |ms| ==> ms[l].key != ms[k].key
    ensures ms[k].key in Assign(ms) && Assign(ms)[ms[k].key] == Value(ms[k].number)
    decreases |ms|
  {
    if k < |ms| - 1 {
      var init := ms[..|ms| - 1];
      assert init[k] == ms[k];
      LastMatchWins(init, k);
    }
  }

  /** The text the patterns are run on: `transliterateAndTranslate(text).toLowerCase().trim()`
      for keyword table `t`. */
  function Normalize(t: seq<Entry>, text: string): string {
    Trim(Lower(TranslateWith(t, text)))
  }

  /** What `parseUserInput` returns: the detected type (`null` when none) and the parameters. */
  datatype Intent = Intent(kind: Option<Kind>, params: Params)

  /** What `parseUserInput` computes from the normalised text `input`: the first kind whose
      pattern matches, the parameters the matches assign, and the "negative slope" rule. Only
      the seven parameter names are ever reported. */
  function ParseNormalized(input: string): (r: Intent)
    ensures r.kind == Classify(input)
    ensures r.params.Keys <= ParameterNames
  {
    ParamKeys(input);
    var kind := Classify(input);
    var params := Assign(MatchAll(input, 0));
    if kind == Some(Linear) && Includes(input, "negative slope") then Intent(kind, params["a" := -1.0])
    else Intent(kind, params)
  }

  /** `parseUserInput(text)` with keyword table `t`. */
  function InterpretWith(t: seq<Entry>, text: string): Intent {
    ParseNormalized(Normalize(t, text))
  }

  /** `parseUserInput(text)` with the page's keyword table: the kind is the classification of
      the trimmed translation, and only the seven parameter names are ever reported. */
  function Interpret(text: string): (r: Intent)
    ensures r.kind == Classify(Trim(Translated(text)))
    ensures r.params.Keys <= ParameterNames
  {
    TableLowerTargets();
    NormalizeIsTrimmedTranslation(DeclaredTable, text);
    InterpretWith(DeclaredTable, text)
  }

  /** `parseUserInput`: normalise, detect the type, assign the matched parameters, then apply
      the "negative slope" rule. */
  method ParseUserInput(text: string) returns (kind: Option<Kind>, params: Params)
    ensures Intent(kind, params) == Interpret(text)
    ensures params.Keys <= ParameterNames
  {
    var translated := TransliterateAndTranslate(text);
    var input := Trim(Lower(translated));
    kind := DetectType(input);
    var matches := MatchAll(input, 0);
    params := AssignParams(matches);
    ParamKeys(input);
    if kind == Some(Linear) && Includes(input, "negative slope") {
      params := params["a" := -1.0];
    }
  }

  /** The `for (const key in patterns)` loop: test the patterns in order and stop at the first
      that matches. */
  method DetectType(input: string) returns (kind: Option<Kind>)
    ensures kind == Classify(input)
  {
    kind := None;
    var i := 0;
    while i < |Order|
      invariant 0 <= i <= |Order|
      invariant kind.None? && FirstFrom(Verdicts(input), i) == FirstFrom(Verdicts(input), 0)
    {
      if Matches(input, Order[i]) {
        kind := Some(Order[i]);
        break;
      }
      i := i + 1;
    }
  }

  /** The `matches.forEach` loop: assign each match's value to its name, in order. */
  method AssignParams(matches: seq<Match>) returns (params: Params)
    ensures params == Assign(matches)
  {
    params := map[];
    for j := 0 to |matches|
      invariant params == Assign(matches[..j])
    {
      assert matches[..j + 1][..j] == matches[..j];
      params := params[matches[j].key := Value(matches[j].number)];
    }
    assert matches[..|matches|] == matches;
  }

  /** Every parameter `parseUserInput` reports is one of the seven parameter names. */
  lemma ParamKeys(input: string)
    ensures Assign(MatchAll(input, 0)).Keys <= ParameterNames
  {
    var ms := MatchAll(input, 0);
    var r := Assign(ms);
    forall key | key in r ensures key in ParameterNames {
      var k :| 0 <= k < |ms| && ms[k].key == key;
      assert Hits(input)[ms[k].start] == Some(ms[k]);
    }
  }

  /** Lower-casing the translated text again changes nothing when the table's replacement texts
      are lower-case, as the page's are: the patterns run on the trimmed translation. */
  lemma NormalizeIsTrimmedTranslation(t: seq<Entry>, text: string)
    requires LowerTargets(t)
    ensures Normalize(t, text) == Trim(TranslateWith(t, text))
    ensures NoUpper(Normalize(t, text))
  {
    var u := TranslateWith(t, text);
    assert NoUpper(u) && Lower(u) == u;
    var r := Trim(u);
    var i, j :| 0 <= i <= j <= |u| && r == u[i..j];
    forall k | 0 <= k < |r| ensures !IsUpper(r[k]) {
      assert r[k] == u[i + k];
    }
  }

  /** The "negative slope" rule touches only a linear result whose text says "negative slope":
      then `a` is -1 whatever was written and every other parameter is as parsed; for every other
      outcome the parameters are exactly the ones the matches assign. */
  lemma NegativeSlopeRule(input: string)
    ensures ParseNormalized(input).kind == Classify(input)
    ensures var r := ParseNormalized(input);
            var parsed := Assign(MatchAll(input, 0));
            if r.kind == Some(Linear) && Includes(input, "negative slope") then
              "a" in r.params && r.params["a"] == -1.0 &&
              r.params.Keys == parsed.Keys + {"a"} &&
              forall key :: key in parsed && key != "a" ==> r.params[key] == parsed[key]
            else
              r.params == parsed
  {
  }
}

=== FILE: page.dfy ===
/** The plot button's click handler (script.js): what it hands to `renderPlot`, with the page's
    input field, `<select>` and parameter inputs as arguments instead of DOM reads. */
module Page {
  import opened Wrappers
  import opened Text
  import opened Catalog
  import opened Interpreter

  /** What one click leads to: the alert when no type is detected, nothing at all, or a plot of
      a kind (by name) with a parameter set. */
  datatype Outcome =
    | Alert(message: string)
    | Idle
    | Render(kind: string, params: Params)

  /** The click handler. `field` is `userInputField?.value` (`None` when the element or its value
      is missing), `selected` is the `<select>` value and `inputs` is what
      `getParametersFromInputs` reads from the parameter inputs. Typed text wins over the
      selection: it is parsed, and the detected kind is plotted with the parsed parameters
      merged over the kind's defaults; without a detected kind the page alerts. Without typed
      text, the selected kind is plotted with the inputs' values, and nothing happens when
      nothing is selected. */
  function OnPlotClick(field: Option<string>, selected: string, inputs: Params): (r: Outcome)
    ensures field.Some? && Trim(field.value) != [] ==>
              (r.Alert? <==> Interpret(Trim(field.value)).kind.None?) && !r.Idle?
    ensures (field.None? || Trim(field.value) == []) ==>
              (r == Idle <==> selected == []) && (r != Idle ==> r == Render(selected, inputs))
  {
    if field.Some? && Trim(field.value) != [] then
      var intent := Interpret(Trim(field.value));
      if intent.kind.None? then Alert("Could not detect function type.")
      else
        var name := Name(intent.kind.value);
        Render(name, Merge(name, intent.params))
    else if selected == [] then Idle
    else Render(selected, inputs)
  }

  /** A plot started from typed text is of a known kind, carries every parameter of that kind and
      only parameters among the seven names, keeps each value the text gave, and gives every
      other parameter its default: its parameters are exactly the kind's and the parsed ones. */
  lemma TypedPlot(text: string, selected: string, inputs: Params)
    requires Trim(text) != []
    requires OnPlotClick(Some(text), selected, inputs).Render?
    ensures var r := OnPlotClick(Some(text), selected, inputs);
            var intent := Interpret(Trim(text));
            intent.kind.Some? && r.kind == Name(intent.kind.value) &&
            Keys(intent.kind.value) <= r.params.Keys <= ParameterNames &&
            (forall key :: key in intent.params ==> r.params[key] == intent.params[key]) &&
            (forall key :: key in r.params && key !in intent.params ==> r.params[key] == DefaultValue(key)) &&
            r.params.Keys == Keys(intent.kind.value) + intent.params.Keys
  {
    var intent := Interpret(Trim(text));
    NameRoundTrip(intent.kind.value);
    MergeKeys(intent.kind.value, intent.params);
  }
}

=== FILE: text.dfy ===
/** The JavaScript string built-ins the interpreter leans on: the character classes `\s`, `\d`
    and `\w` of a regular expression without the `u` flag, `toLowerCase`, `trim`, `includes`
    and `replaceAll` with a string pattern. */
module Text {

  /** `\s` in a regular expression, which is also the set `trim` removes: the WhiteSpace and
      LineTerminator code points of ECMAScript. */
  predicate IsSpace(c: char) {
    c == '\t' || c == '\n' || c == '\U{B}' || c == '\U{C}' || c == '\r' || c == ' ' ||
    c == '\U{A0}' || c == '\U{1680}' || ('\U{2000}' <= c <= '\U{200A}') ||
    c == '\U{2028}' || c == '\U{2029}' || c == '\U{202F}' || c == '\U{205F}' ||
    c == '\U{3000}' || c == '\U{FEFF}'
  }

  /** `\d`: an ASCII digit. */
  predicate IsDigit(c: char) {
    '0' <= c <= '9'
  }

  /** `\w`, the class `\b` is defined by: ASCII letters, digits and underscore. */
  predicate IsWordChar(c: char) {
    'a' <= c <= 'z' || 'A' <= c <= 'Z' || IsDigit(c) || c == '_'
  }

  /** The upper-case letters whose lower-case mapping the model knows: ASCII, Latin-1,
      basic Cyrillic (with the Ѐ..Џ block), and Š, Ž of Estonian. */
  predicate IsUpper(c: char) {
    ('A' <= c <= 'Z') ||
    ('\U{C0}' <= c <= '\U{DE}' && c != '\U{D7}') ||
    ('\U{400}' <= c <= '\U{42F}') ||
    c == '\U{160}' || c == '\U{17D}'
  }

  /** The upper-case partner of a lower-case letter the model knows; other characters are kept. */
  function UpperChar(d: char): char {
    if 'a' <= d <= 'z' || ('\U{E0}' <= d <= '\U{FE}' && d != '\U{F7}') || ('\U{430}' <= d <= '\U{44F}') then
      (d as int - 0x20) as char
    else if '\U{450}' <= d <= '\U{45F}' then
      (d as int - 0x50) as char
    else if d == '\U{161}' || d == '\U{17E}' then
      (d as int - 1) as char
    else
      d
  }

  /** The lower-case partner of one character: an upper-case letter becomes the letter whose
      upper-case partner it is; characters that are not upper-case are kept. */
  function LowerChar(c: char): (d: char)
    ensures !IsUpper(d)
    ensures IsUpper(c) ==> UpperChar(d) == c
    ensures !IsUpper(c) ==> d == c
  {
    if 'A' <= c <= 'Z' || ('\U{C0}' <= c <= '\U{DE}' && c != '\U{D7}') || ('\U{410}' <= c <= '\U{42F}') then
      (c as int + 0x20) as char
    else if '\U{400}' <= c <= '\U{40F}' then
      (c as int + 0x50) as char
    else if c == '\U{160}' || c == '\U{17D}' then
      (c as int + 1) as char
    else
      c
  }

  /** No character of `s` is upper-case. */
  predicate NoUpper(s: string) {
    forall i :: 0 <= i < |s| ==> !IsUpper(s[i])
  }

  /** `s.toLowerCase()`: the result has no upper-case letter and has the length of `s`; each
      upper-case letter becomes its lower-case partner, every other character is kept, so text
      that is already lower-case comes back unchanged. */
  function Lower(s: string): (r: string)
    ensures |r| == |s| && NoUpper(r)
    ensures forall i :: 0 <= i < |s| && IsUpper(s[i]) ==> UpperChar(r[i]) == s[i]
    ensures forall i :: 0 <= i < |s| && !IsUpper(s[i]) ==> r[i] == s[i]
    ensures NoUpper(s) ==> r == s
  {
    seq(|s|, i requires 0 <= i < |s| => LowerChar(s[i]))
  }

  /** `s.trim()`: drops the white space at both ends and nothing else. */
  function Trim(s: string): (r: string)
    ensures exists i, j :: 0 <= i <= j <= |s| && r == s[i..j] &&
                           (forall k :: 0 <= k < i ==> IsSpace(s[k])) &&
                           (forall k :: j <= k < |s| ==> IsSpace(s[k]))
    ensures r == [] || (!IsSpace(r[0]) && !IsSpace(r[|r| - 1]))
  {
    var i := SkipSpaces(s, 0);
    var j := TrimmedEnd(s, |s|, i);
    s[i..j]
  }

  /** The first position at or after `i` that holds no white space (or `|s|`). */
  function SkipSpaces(s: string, i: nat): (j: nat)
    requires i <= |s|
    ensures i <= j <= |s|
    ensures forall k :: i <= k < j ==> IsSpace(s[k])
    ensures j == |s| || !IsSpace(s[j])
    decreases |s| - i
  {
    if i < |s| && IsSpace(s[i]) then SkipSpaces(s, i + 1) else i
  }

  /** `SkipSpaces` stops at the first character that is not white space. */
  lemma SkipSpacesTo(s: string, i: nat, k: nat)
    requires i <= k <= |s| && (forall j :: i <= j < k ==> IsSpace(s[j])) && (k == |s| || !IsSpace(s[k]))
    ensures SkipSpaces(s, i) == k
  {
  }

  /** The end of `s[..j]` once the white space after position `lo` is cut off. */
  function TrimmedEnd(s: string, j: nat, lo: nat): (e: nat)
    requires lo <= j <= |s|
    ensures lo <= e <= j
    ensures forall k :: e <= k < j ==> IsSpace(s[k])
    ensures e == lo || !IsSpace(s[e - 1])
    decreases j
  {
    if j > lo && IsSpace(s[j - 1]) then TrimmedEnd(s, j - 1, lo) else j
  }

  /** `w` occurs in `s` at index `i`. */
  predicate OccursAt(s: string, i: int, w: string) {
    0 <= i && i + |w| <= |s| && s[i..i + |w|] == w
  }

  /** `s.includes(w)`: some occurrence of `w` in `s`. */
  function Includes(s: string, w: string): (b: bool)
    ensures b <==> exists i :: OccursAt(s, i, w)
    decreases |s|
  {
    if |s| < |w| then false
    else if s[..|w|] == w then
      assert OccursAt(s, 0, w);
      true
    else
      var b := Includes(s[1..], w);
      assert forall i :: OccursAt(s[1..], i, w) ==> OccursAt(s, i + 1, w) by {
        forall i | OccursAt(s[1..], i, w) ensures OccursAt(s, i + 1, w) {
          assert s[i + 1..i + 1 + |w|] == s[1..][i..i + |w|];
        }
      }
      assert forall i :: OccursAt(s, i, w) ==> i > 0 && OccursAt(s[1..], i - 1, w) by {
        forall i | OccursAt(s, i, w) ensures i > 0 && OccursAt(s[1..], i - 1, w) {
          assert s[1..][i - 1..i - 1 + |w|] == s[i..i + |w|];
        }
      }
      b
  }

  /** `s.replaceAll(pat, rep)` with a string pattern: scans left to right, replaces each
      non-overlapping occurrence and resumes after it; an empty pattern matches before every
      character and at the end. `rep` holds no `$`, so no substitution patterns apply. Replacing
      with lower-case text keeps lower-case text lower-case. */
  function ReplaceAll(s: string, pat: string, rep: string): (r: string)
    ensures NoUpper(s) && NoUpper(rep) ==> NoUpper(r)
    decreases |s|
  {
    if pat == [] then
      if s == [] then rep else rep + [s[0]] + ReplaceAll(s[1..], pat, rep)
    else if |s| < |pat| then s
    else if s[..|pat|] == pat then rep + ReplaceAll(s[|pat|..], pat, rep)
    else [s[0]] + ReplaceAll(s[1..], pat, rep)
  }

  /** Text without an occurrence of a non-empty pattern comes back unchanged. */
  lemma {:induction false} ReplaceAllAbsent(s: string, pat: string, rep: string)
    requires pat != [] && !Includes(s, pat)
    ensures ReplaceAll(s, pat, rep) == s
    decreases |s|
  {
    if |s| >= |pat| {
      assert !OccursAt(s, 0, pat);
      ReplaceAllAbsent(s[1..], pat, rep);
      assert [s[0]] + s[1..] == s;
    }
  }

  /** Replacing a pattern by itself changes nothing. */
  lemma {:induction false} ReplaceAllSelf(s: string, w: string)
    ensures ReplaceAll(s, w, w) == s
    decreases |s|
  {
    if w == [] {
      if s != [] {
        ReplaceAllSelf(s[1..], w);
        assert [s[0]] + s[1..] == s;
      }
    } else if |s| >= |w| {
      if s[..|w|] == w {
        ReplaceAllSelf(s[|w|..], w);
        assert s[..|w|] + s[|w|..] == s;
      } else {
        ReplaceAllSelf(s[1..], w);
        assert [s[0]] + s[1..] == s;
      }
    }
  }

  /** A cheap sufficient reason for `w` not to occur in `s`: it is longer, or its first
      character appears at no position where an occurrence could start, or its last character
      at no position where one could end. */
  lemma CannotOccur(s: string, w: string)
    requires w != []
    requires |w| > |s| || w[0] !in s[..|s| - |w| + 1] || w[|w| - 1] !in s[|w| - 1..]
    ensures !Includes(s, w)
  {
    forall i | 0 <= i && i + |w| <= |s| ensures !OccursAt(s, i, w) {
      assert s[i] == s[..|s| - |w| + 1][i];
      assert s[i + |w| - 1] == s[|w| - 1..][i];
      assert s[i..i + |w|][0] == s[i] && s[i..i + |w|][|w| - 1] == s[i + |w| - 1];
    }
  }

  /** `replaceAll` keeps a first character that cannot start an occurrence and scans on. */
  lemma ReplaceAllKeep(s: string, pat: string, rep: string)
    requires pat != [] && s != [] && s[0] != pat[0]
    ensures ReplaceAll(s, pat, rep) == [s[0]] + ReplaceAll(s[1..], pat, rep)
  {
    if |s| >= |pat| {
      assert s[..|pat|][0] != pat[0];
    }
  }

  /** `replaceAll` replaces an occurrence at the start and scans on after it. */
  lemma ReplaceAllTake(s: string, pat: string, rep: string, q: string)
    requires pat != [] && s == pat + q
    ensures ReplaceAll(s, pat, rep) == rep + ReplaceAll(q, pat, rep)
  {
    assert s[..|pat|] == pat;
    assert s[|pat|..] == q;
  }

  /** An occurrence of `u + v` is an occurrence of `u` followed by one of `v`. */
  lemma OccursConcat(s: string, i: int, u: string, v: string)
    requires OccursAt(s, i, u + v)
    ensures OccursAt(s, i, u) && OccursAt(s, i + |u|, v)
  {
    assert s[i..i + |u|] == s[i..i + |u| + |v|][..|u|];
    assert s[i + |u|..i + |u| + |v|] == s[i..i + |u| + |v|][|u|..];
  }

  /** An occurrence of a character followed by `v` is that character, then an occurrence of `v`. */
  lemma OccursCons(s: string, i: int, ch: char, v: string)
    requires OccursAt(s, i, [ch] + v)
    ensures s[i] == ch && OccursAt(s, i + 1, v) && s[i + 1..i + 1 + |v|] == v
  {
    assert s[i] == s[i..i + 1 + |v|][0];
    assert s[i + 1..i + 1 + |v|] == s[i..i + 1 + |v|][1..];
  }
}

=== FILE: translate.dfy ===
/** The keyword table of `transliterateAndTranslate` (script.js), as the page declares it. */
module Keywords {
  /** One table entry: every occurrence of `key` is replaced by `target`. */
  datatype Entry = Entry(key: string, target: string)

  /** The Russian entries, in declaration order. */
  const Russian: seq<Entry> := [
    Entry("парабола", "quadratic"),
    Entry("линейная", "linear"),
    Entry("линейный", "linear"),
    Entry("линейное", "linear"),
    Entry("синус", "sine"),
    Entry("синусоида", "sine"),
    Entry("косинус", "cosine"),
    Entry("тангенс", "tangent"),
    Entry("экспонента", "exponential"),
    Entry("экспоненциальная", "exponential"),
    Entry("логарифм", "logarithmic"),
    Entry("абсолют", "absolute"),
    Entry("модуль", "absolute"),
    Entry("корень", "square-root"),
    Entry("руутюур", "square-root")
  ]

  /** The Estonian entries, in declaration order. */
  const Estonian: seq<Entry> := [
    Entry("parabool", "quadratic"),
    Entry("lineaarne", "linear"),
    Entry("sinus", "sine"),
    Entry("kosinus", "cosine"),
    Entry("tangens", "tangent"),
    Entry("eksponentsiaalne", "exponential"),
    Entry("logaritmiline", "logarithmic"),
    Entry("absoluutne", "absolute"),
    Entry("ruutjuur", "square-root"),
    Entry("sagedus", "frequency"),
    Entry("faas", "phase"),
    Entry("kvadraatne", "quadratic"),
    Entry("kuup", "cubic")
  ]

  /** The English entries, each mapping a kind name to itself. */
  const English: seq<Entry> := [
    Entry("quadratic", "quadratic"),
    Entry("linear", "linear"),
    Entry("sine", "sine"),
    Entry("cosine", "cosine"),
    Entry("tangent", "tangent"),
    Entry("exponential", "exponential"),
    Entry("logarithmic", "logarithmic"),
    Entry("absolute", "absolute"),
    Entry("square-root", "square-root")
  ]

  /** The table in the order the page declares it: Russian, then Estonian, then English
      entries. A key that occurs inside a later key spoils it before its own entry is reached. */
  const DeclaredTable: seq<Entry> := Russian + Estonian + English

  /** The Russian entries with "синус" moved after "синусоида" and "косинус", the keys that
      contain it. */
  const RussianLongestFirst: seq<Entry> := [
    Entry("парабола", "quadratic"),
    Entry("линейная", "linear"),
    Entry("линейный", "linear"),
    Entry("линейное", "linear"),
    Entry("синусоида", "sine"),
    Entry("косинус", "cosine"),
    Entry("синус", "sine"),
    Entry("тангенс", "tangent"),
    Entry("экспонента", "exponential"),
    Entry("экспоненциальная", "exponential"),
    Entry("логарифм", "logarithmic"),
    Entry("абсолют", "absolute"),
    Entry("модуль", "absolute"),
    Entry("корень", "square-root"),
    Entry("руутюур", "square-root")
  ]

  /** The Estonian entries with "sinus" moved after "kosinus", the key that contains it. */
  const EstonianLongestFirst: seq<Entry> := [
    Entry("parabool", "quadratic"),
    Entry("lineaarne", "linear"),
    Entry("kosinus", "cosine"),
    Entry("sinus", "sine"),
    Entry("tangens", "tangent"),
    Entry("eksponentsiaalne", "exponential"),
    Entry("logaritmiline", "logarithmic"),
    Entry("absoluutne", "absolute"),
    Entry("ruutjuur", "square-root"),
    Entry("sagedus", "frequency"),
    Entry("faas", "phase"),
    Entry("kvadraatne", "quadratic"),
    Entry("kuup", "cubic")
  ]

  /** The corrected table: the declared entries with "синус" and "sinus" moved after the keys
      that contain them, so that neither word for cosine is spoiled. */
  const CorrectedTable: seq<Entry> := RussianLongestFirst + EstonianLongestFirst + English
}

/** The keyword normaliser `transliterateAndTranslate` (script.js): lower-case the text, then run
    one `replaceAll` per entry of a fixed table of Russian, Estonian and English keywords, in
    table order, each entry seeing the output of the entries before it. */
module Translate {
  import opened Text
  import opened Keywords

  /** A table whose replacement texts are lower-case. */
  predicate LowerTargets(t: seq<Entry>) {
    forall k :: 0 <= k < |t| ==> NoUpper(t[k].target)
  }

  /** The left fold of `replaceAll` over the entries `t[i..]`, in order. */
  function Rewrite(s: string, t: seq<Entry>, i: nat): (r: string)
    requires i <= |t|
    ensures NoUpper(s) && LowerTargets(t) ==> NoUpper(r)
    decreases |t| - i
  {
    if i == |t| then s else Rewrite(ReplaceAll(s, t[i].key, t[i].target), t, i + 1)
  }

  /** Normalising `text` with table `t`: lower-case, then the whole fold. */
  function TranslateWith(t: seq<Entry>, text: string): string {
    Rewrite(Lower(text), t, 0)
  }

  /** What `transliterateAndTranslate(text)` returns: normalising with the declared table. The
      result holds no upper-case letter, so lower-casing it again changes nothing. */
  function Translated(text: string): (r: string)
    ensures NoUpper(r) && Lower(r) == r
  {
    TableLowerTargets();
    TranslateWith(DeclaredTable, text)
  }

  /** Every replacement text of the declared table is lower-case. */
  lemma TableLowerTargets()
    ensures LowerTargets(DeclaredTable)
  {
    RussianLowerTargets();
    EstonianLowerTargets();
    EnglishLowerTargets();
    LowerTargetsConcat(Russian, Estonian);
    LowerTargetsConcat(Russian + Estonian, English);
  }

  lemma RussianLowerTargets()
    ensures LowerTargets(Russian)
  {
  }

  lemma EstonianLowerTargets()
    ensures LowerTargets(Estonian)
  {
  }

  lemma EnglishLowerTargets()
    ensures LowerTargets(English)
  {
  }

  lemma LowerTargetsConcat(t: seq<Entry>, u: seq<Entry>)
    requires LowerTargets(t) && LowerTargets(u)
    ensures LowerTargets(t + u)
  {
    forall k | 0 <= k < |t + u| ensures NoUpper((t + u)[k].target) {
      if k >= |t| {
        assert (t + u)[k] == u[k - |t|];
      }
    }
  }

  /** `transliterateAndTranslate`: the loop over the table reassigns `result` once per entry.
      The result is the fold of the table over the lower-cased text and holds no upper-case
      letter. */
  method TransliterateAndTranslate(text: string) returns (result: string)
    ensures result == Translated(text)
    ensures NoUpper(result)
  {
    TableLowerTargets();
    result := Lower(text);
    for i := 0 to |DeclaredTable|
      invariant Rewrite(result, DeclaredTable, i) == Translated(text)
      invariant NoUpper(result)
    {
      result := ReplaceAll(result, DeclaredTable[i].key, DeclaredTable[i].target);
    }
  }

  /** Entries that map a keyword to itself leave the text unchanged. */
  lemma {:induction false} RewriteIdentity(s: string, t: seq<Entry>, i: nat)
    requires i <= |t|
    requires forall k :: i <= k < |t| ==> t[k].key == t[k].target
    ensures Rewrite(s, t, i) == s
    decreases |t| - i
  {
    if i < |t| {
      ReplaceAllSelf(s, t[i].key);
      RewriteIdentity(s, t, i + 1);
    }
  }

  /** Folding a concatenated table folds the first part, then the second. */
  lemma RewriteConcat(s: string, t: seq<Entry>, u: seq<Entry>)
    ensures Rewrite(s, t + u, 0) == Rewrite(Rewrite(s, t, 0), u, 0)
  {
    RewritePrefix(s, t, u, 0);
    RewriteSuffix(Rewrite(s, t, 0), t, u, 0);
  }

  lemma {:induction false} RewritePrefix(s: string, t: seq<Entry>, u: seq<Entry>, i: nat)
    requires i <= |t|
    ensures Rewrite(s, t + u, i) == Rewrite(Rewrite(s, t, i), t + u, |t|)
    decreases |t| - i
  {
    if i < |t| {
      assert (t + u)[i] == t[i];
      RewritePrefix(ReplaceAll(s, t[i].key, t[i].target), t, u, i + 1);
    }
  }

  lemma {:induction false} RewriteSuffix(s: string, t: seq<Entry>, u: seq<Entry>, i: nat)
    requires i <= |u|
    ensures Rewrite(s, t + u, |t| + i) == Rewrite(s, u, i)
    decreases |u| - i
  {
    if i < |u| {
      assert (t + u)[|t| + i] == u[i];
      RewriteSuffix(ReplaceAll(s, u[i].key, u[i].target), t, u, i + 1);
    }
  }

  /** The English entries are no-ops: normalising with a table that ends with them is
      normalising with the entries before them. */
  lemma EnglishEntriesInert(s: string, r: seq<Entry>, e: seq<Entry>)
    ensures Rewrite(s, r + e + English, 0) == Rewrite(Rewrite(s, r, 0), e, 0)
  {
    RewriteConcat(s, r + e, English);
    RewriteConcat(s, r, e);
    EnglishIdentities();
    RewriteIdentity(Rewrite(s, r + e, 0), English, 0);
  }

  lemma EnglishIdentities()
    ensures forall k :: 0 <= k < |English| ==> English[k].key == English[k].target
  {
  }

  /** An entry whose key cannot occur in `s` by `CannotOccur`'s test. */
  predicate Inert(s: string, e: Entry) {
    e.key != [] &&
    (|e.key| > |s| || e.key[0] !in s[..|s| - |e.key| + 1] || e.key[|e.key| - 1] !in s[|e.key| - 1..])
  }

  /** Entries `t[i..j]` whose keys cannot occur leave the text as it is. */
  lemma {:induction false} RewriteSkip(s: string, t: seq<Entry>, i: nat, j: nat)
    requires i <= j <= |t|
    requires forall k :: i <= k < j ==> Inert(s, t[k])
    ensures Rewrite(s, t, i) == Rewrite(s, t, j)
    decreases j - i
  {
    if i < j {
      CannotOccur(s, t[i].key);
      ReplaceAllAbsent(s, t[i].key, t[i].target);
      RewriteSkip(s, t, i + 1, j);
    }
  }
}

=== FILE: wrappers.dfy ===
/** The optional value the model uses for JavaScript's `null`. */
module Wrappers {
  datatype Option<+T> = None | Some(value: T)
}
